=== FILE: README.md ===
# Lock analysis and rewriting helpers of a C-to-Rust mutex translator

This project models two parts of a translator that turns C programs using pthread mutexes
into Rust programs whose data lives inside the mutex protecting it.

**The global lock analysis** (`src/dataflow/pass.rs`). It runs after per-function facts
have been collected: the call graph, the mutex expressions locked in each function,
the held locks at function entry, exit and before each call, and the accesses with their
held locks. From these facts it:

- collects the candidate mutex expressions, re-basing those reached through a parameter
  onto every argument of the parameter's type (`PossibleMutexes`);
- assembles each function's summary (`Summaries`);
- narrows the lock sets over the call graph with a worklist fixpoint, then splits each
  result into the function's own entry locks and the locks its callers propagate
  (`Fixpoint`);
- decides for each global variable which mutex guards it (`Classify`);
- files struct field accesses under the struct type that declares a mutex (`StructGroup`);
- exports the summaries with mutex names (`Export`).

Mutex ids and function ids are `nat`s. A bit set of ids is a `set<nat>`. A mutex or
access expression is an `ExprPath`: a base variable followed by field and index
projections (`ExprPaths`).

**The rewriting helpers** (`src/rewrite.rs`). These are the generated-name functions
`guard_of`, `struct_of`, `struct_of2`, `join` and `make_tuple` (`Rewrite`). The rewriter
also keeps pending edits per file and per nesting depth, and applies them bucket by bucket
in ascending depth (`Suggestions`).

`Scenarios` applies the model to `examples/global_assume2/a.c`. In that program `n1` is
written only inside `inc`, `inc` is called only with `num_mutex` held, and `t_fun` is
spawned. The model proves that the analysis maps `n1` to `num_mutex`.

The analysis narrows must-hold bit sets by intersection. The code asserts that every
strongly connected component of the call graph is a single function that does not call
itself (src/dataflow/pass.rs:256-258). The fixpoint is proved for every call graph, so the
model needs no such assertion. For the starting states it computes the greatest stable
state below them, not just some stable state.

## Model

| member | source | states |
|---|---|---|
| PossibleMutexes.ParamType | src/dataflow/pass.rs:86 | the type of the first parameter with the given name; `None` exactly when no parameter has that name |
| PossibleMutexes.Contribution | src/dataflow/pass.rs:82-93 | one function's mutexes are all kept; every re-basing of a non-variable one onto an argument of its base parameter's type is added; everything added is such a re-basing, and so not a plain variable |
| PossibleMutexes.FromFunctions | src/dataflow/pass.rs:79-94 | every locked path of every listed function is included, with each re-basing of a non-variable one onto an argument of its base parameter's type; nothing else is included |
| PossibleMutexes.PossibleMutexes | src/dataflow/pass.rs:78-96 | a path is a candidate mutex exactly when it is locked somewhere or is such a re-basing; a candidate that is never locked itself is not a plain variable |
| ExprPaths.Pop | src/dataflow/pass.rs:515 | popping gives nothing exactly for a plain variable; otherwise the remaining projections plus the popped one are the original projections, and the base is kept |
| ExprPaths.FirstIndex | src/dataflow/pass.rs:491-493 | yields an index exactly when the first projection is an `Index`, and yields that index |
| CallGraph.RemoveLibraryCallees | src/dataflow/pass.rs:227-232 | the same functions remain, every callee is a user-defined function, and a call between user-defined functions is kept exactly when it was there |
| CallGraph.Roots | src/dataflow/pass.rs:380-386 | a user-defined function is a root exactly when no user-defined function calls it |
| CallGraph.ClosedHoldsReachable | src/dataflow/pass.rs:102-111 | a set that holds the thread entries and is closed under calls holds the end of every call path from an entry |
| CallGraph.SearchStep | src/dataflow/pass.rs:102-111 | visiting one function of the search keeps every visited function reachable from the entries and every finished function's callees visited |
| CallGraph.ThreadFunctions | src/dataflow/pass.rs:98-112 | empty when nothing is spawned; otherwise exactly the functions reachable by calls from the thread entries (the entries included) |
| Summaries.NodeMutex | src/dataflow/pass.rs:283-306 | the locks held somewhere in a function include the entry set, the return set and the set held before every call, and nothing else |
| Summaries.CallPropagation | src/dataflow/pass.rs:288-342 | every entry of the propagation list is taken from a call to a user-defined function, every such call has its entry listed, and library calls contribute nothing |
| Summaries.CallPropagationInOrder | src/dataflow/pass.rs:288-342 | the propagation list has exactly one entry per call to a user-defined function, in the order of the calls |
| Fixpoint.Full | src/dataflow/pass.rs:401 | the filled set holds exactly the ids below the number of mutexes |
| Fixpoint.Initial | src/dataflow/pass.rs:395-404 | roots start at their entry set and every other function at the full set |
| Fixpoint.SumSizesNarrow | src/dataflow/pass.rs:414-416 | narrowing one function's state never increases the total state size, and strictly decreases it when the state changed |
| Fixpoint.NarrowCallees | src/dataflow/pass.rs:407-418 | the states after one round are exactly `Narrowed`: each callee `g` of the popped function `f` keeps its old state intersected with `f`'s propagation to `g` plus `f`'s state, and every other state is unchanged, so no state grows. The new queue is the old queue followed only by callees whose state changed, and every changed callee is queued. Afterwards the queue is duplicate-free and excludes `f`, and only edges out of queued functions may be unsettled. Roots keep their entry sets, and no lock of a stable state below the start is lost. The total size does not grow, and the queue changes only when the size shrank |
| Fixpoint.Drain | src/dataflow/pass.rs:406-419 | the worklist loop terminates with an empty queue and keeps the fixpoint invariant |
| Fixpoint.Solve | src/dataflow/pass.rs:380-419 | the final states have the same functions and lie below the starting states; roots keep their entry sets; for each call edge `f -> g`, `abs[g]` is within `propagation[f][g] + abs[f]`; every other stable state below the start lies below the result; when the entry sets fit the call edges, each final state contains its entry set |
| Fixpoint.PropagationMutexes | src/dataflow/pass.rs:421-427 | fails exactly when some final state misses part of its entry set; otherwise each propagated set is disjoint from the entry set and together with it makes up the final state |
| Classify.Record | src/dataflow/pass.rs:436-439 | an access is recorded for its function and keeps its write flag; its held set is the site's held set joined with the function's propagated locks, and nothing else |
| Classify.Sites | src/dataflow/pass.rs:435-437 | lists exactly the (function, access) pairs of the listed functions' summaries |
| Classify.Group | src/dataflow/pass.rs:434-449 | non-struct paths collect every one of their accesses, with the function's propagated locks added to the held set, and nothing else; struct accesses are exactly those whose path is a struct path |
| Classify.Retained | src/dataflow/pass.rs:466-469 | all accesses are kept when there are no thread functions, otherwise exactly those from thread functions |
| Classify.CommonHeld | src/dataflow/pass.rs:477-485 | an id is common exactly when it is held at every access |
| Classify.MatchingIds | src/dataflow/pass.rs:490-503 | exactly the ids whose mutex has the access path's shape, still in ascending order |
| Classify.Decide | src/dataflow/pass.rs:464-507 | the verdict is skip when no access remains after the thread filter, when all remaining accesses are reads, or when no lock is common to them; a chosen mutex is held at every retained access, some retained access writes, the mutex has the path's shape, it goes to the array map exactly when the path starts with an index, and it is the greatest such common id |
| Classify.DecideFindsGuard | src/dataflow/pass.rs:464-507 | when some retained access writes and a mutex of the right shape is held at every retained access, a mutex is chosen, and its id is at least that one |
| Classify.Verdicts | src/dataflow/pass.rs:464-465 | one verdict per global path, each the decision for that path's accesses |
| Classify.BuildMap | src/dataflow/pass.rs:499-506 | every path whose verdict selects the map has its base mapped, and every entry comes from the last selecting path with that base |
| StructGroup.FindField | src/dataflow/pass.rs:512-525 | names the longest proper prefix reached through fields only whose type declares a mutex, together with the field removed; fails when a prefix without a recorded type comes first; otherwise reports nothing found |
| StructGroup.GroupFilings | src/dataflow/pass.rs:525-529 | fails exactly when some filing is a missing type; otherwise every grouped access is filed under its (type, field) key and every filed entry comes from some access |
| StructGroup.GroupStructAccesses | src/dataflow/pass.rs:510-530 | the same for struct accesses filed by `FindField` |
| Export.Names | src/dataflow/pass.rs:606-610 | one name per id, and a name is listed exactly when it names one of the ids |
| Export.WithPropagated | src/dataflow/pass.rs:621-629 | the first `|own|` entries are exactly the names of the own ids, as `Names` lists them, and the rest are exactly the names of the propagated ids; a name is listed exactly when it names an own or propagated id |
| Export.ExportSummary | src/dataflow/pass.rs:611-638 | each of the entry, node and return lists ends with the same propagated names, so every propagated mutex is in all three, and each list names exactly its own ids plus the propagated ones |
| Rewrite.LastIndexOf | src/rewrite.rs:976 | `None` exactly when the character is absent; otherwise a position of that character with no later occurrence |
| Rewrite.LastArrow | src/rewrite.rs:981 | `None` exactly when there is no `->`; otherwise the position of the last `->` |
| Rewrite.GuardOf | src/rewrite.rs:975-986 | the guard name always ends with `_guard`, and a name without `[`, `.` or `->` just gets `_guard` appended |
| Rewrite.GuardOfIndex | src/rewrite.rs:976-978 | `a[i]` becomes `a_i_guard` for every `a` and every `i` without brackets |
| Rewrite.GuardOfField | src/rewrite.rs:979-980 | `s.f` becomes `s_f_guard` when there is no `[` and the field has no `.` |
| Rewrite.GuardOfArrow | src/rewrite.rs:981-982 | `p->f` becomes `p_f_guard` when there is no `[` or `.` and the field has no `->` of its own |
| Rewrite.GuardOfDotBeforeArrow | src/rewrite.rs:976-982 | `.` is tried before `->`: `a.b->c` becomes `a_b->c_guard` |
| Rewrite.GuardOfIndexExample | src/rewrite.rs:975-986 | `a[i]` becomes `a_i_guard` |
| Rewrite.GuardOfFieldExample | src/rewrite.rs:975-986 | `s.m` becomes `s_m_guard` |
| Rewrite.GuardOfArrowExample | src/rewrite.rs:975-986 | `p->m` becomes `p_m_guard` |
| Rewrite.StructOf | src/rewrite.rs:988-990 | the name followed by `ProtectedData` |
| Rewrite.StructOfInjective | src/rewrite.rs:988-990 | different names give different struct names |
| Rewrite.StructOf2 | src/rewrite.rs:992-994 | the mutex name, then `Protected`, then the struct name |
| Rewrite.StructOf2Injective | src/rewrite.rs:992-994 | with one argument fixed, different values of the other give different names |
| Rewrite.Join | src/rewrite.rs:996-998 | empty for no elements, the element itself for one, and otherwise as long as the elements plus one separator between each pair |
| Rewrite.JoinSnoc | src/rewrite.rs:996-998 | joining one more element appends the separator and that element |
| Rewrite.SplitJoin | src/rewrite.rs:996-998 | joining with a one-character separator that no element contains, then splitting at it, gives the elements back |
| Rewrite.MakeTuple | src/rewrite.rs:1000-1007 | requires a non-empty list; one element is returned unchanged, several are comma-joined in parentheses |
| Suggestions.AddAt | src/rewrite.rs:898-903 | the edit goes to the end of its depth's bucket, which is created when missing, and no other bucket changes |
| Suggestions.Record | src/rewrite.rs:896-913 | the edit is added to its file's buckets, which are created when missing, and other files do not change |
| Suggestions.Flatten | src/rewrite.rs:81-85 | no buckets give no edits; the shallowest bucket's edits come first, in their recorded order; the result is at least as long as every bucket |
| Suggestions.FlattenMembers | src/rewrite.rs:81-85 | the flattened edits are exactly the edits of the buckets |
| Suggestions.FlattenSplit | src/rewrite.rs:81-85 | flattening yields every bucket up to a depth before every deeper bucket |
| Suggestions.FlattenSingle | src/rewrite.rs:81-85 | a single bucket flattens to its edits in insertion order |
| Suggestions.FlattenAppendDeepest | src/rewrite.rs:81-85 | appending to the deepest bucket appends to the flattened order |
| Suggestions.AddAtOrder | src/rewrite.rs:81-85 | after an edit is recorded at depth `d`, it is applied after every edit at depth `d` or less and before every deeper edit |
| Scenarios.ThreadProgramEdges | examples/global_assume2/a.c:16-25 | the call graph of the program has exactly the calls `t_fun -> f1` and `f1 -> inc` |
| Scenarios.ThreadProgramRoots | examples/global_assume2/a.c:22-33 | `main` and `t_fun` are the roots |
| Scenarios.ThreadProgramCallGraph | examples/global_assume2/a.c:16-33 | removing the library callees (the pthread functions) from the callees of every call leaves exactly the calls `t_fun -> f1` and `f1 -> inc` |
| Scenarios.ThreadProgramMutexes | examples/global_assume2/a.c:5-19 | the only lock expression is `num_mutex` in `f1`, and the candidate mutexes are exactly `{num_mutex}` |
| Scenarios.ThreadProgramNumbering | src/dataflow/pass.rs:239-247 | every numbering of those candidates, ids `0` up to their count and one candidate per id, is `0 -> num_mutex`, whatever the iteration order |
| Scenarios.ThreadProgramNodes | examples/global_assume2/a.c:16-20 | `f1` holds `num_mutex` somewhere, before its call of `inc` and of the unlock; no other function holds a lock anywhere |
| Scenarios.ThreadProgramCallPropagation | examples/global_assume2/a.c:16-33 | `t_fun` passes nothing to `f1`, `f1` passes `num_mutex` to `inc`, and the pthread calls of `main` and `f1` are skipped |
| Scenarios.ThreadProgramHeldAcross | examples/global_assume2/a.c:16-25 | the propagation lists built from the calls agree with the propagation map the fixpoint is given |
| Scenarios.ThreadProgramStates | examples/global_assume2/a.c:16-20 | the fixpoint gives `inc` the lock `num_mutex` and every other function no lock |
| Scenarios.ThreadProgramPropagated | examples/global_assume2/a.c:16-20 | with no entry locks, the propagated locks are those final states |
| Scenarios.ThreadProgramThreads | examples/global_assume2/a.c:22-30 | the functions that may run in a spawned thread are `t_fun`, `f1` and `inc` |
| Scenarios.ThreadProgramSummariesShape | examples/global_assume2/a.c:7-20 | the summaries give `f1` one read of `num_mutex`, `inc` one write of `n1`, and the others no access; only `inc` has a propagated lock, `num_mutex` |
| Scenarios.ThreadProgramSites | examples/global_assume2/a.c:7-19 | for summaries of that shape, the access sites are exactly `f1`'s read of `num_mutex` with nothing held locally, then `inc`'s write of `n1` with nothing held locally |
| Scenarios.ThreadProgramAccesses | examples/global_assume2/a.c:8-19 | `n1` and `num_mutex` are global paths. The only access to `n1` is `inc`'s write with `num_mutex` held, and the only access to `num_mutex` is `f1`'s read with nothing held |
| Scenarios.ThreadProgramVerdict | examples/global_assume2/a.c:17-19 | the verdict for `n1` chooses `num_mutex` |
| Scenarios.ThreadProgramReadOnly | examples/global_assume2/a.c:17-19 | `num_mutex`, which is only read, is skipped as read-only |
| Scenarios.ThreadProgramGlobal | examples/global_assume2/a.c:5-19 | after grouping, every held set uses only id 0; `n1` gets the plain mutex `num_mutex` and `num_mutex` is skipped as read-only |
| Scenarios.ThreadProgramMaps | examples/global_assume2/a.c:3-5 | with those two verdicts, the mutex map is `n1 -> num_mutex` and the array map is empty |
| Scenarios.ThreadProgram | examples/global_assume2/a.c:1-33 | the whole analysis maps `n1` to `num_mutex`, gives the read-only global `num_mutex` no mutex, and maps no array to any mutex |

## Left out

- The per-function MIR analyses (`live_guards`, `available_guards`) are not part of this model. The entry set, the return set and the set held before each call are inputs of `Summaries`.
- The argument aliasing closure at src/dataflow/pass.rs:318-333 depends on `ExprPath` prefix helpers that are not part of this model. The propagated set of each call (`CallSite.propagated`) is an input.
- `FunctionSummary::new` is not part of this model. The summary holds the propagation map and the access entries directly, with the accesses as a sequence in map iteration order. Its access map has one entry per path (src/dataflow/pass.rs:437), so `Scenarios` gives `inc` a single entry for `n1`. Every read and write of `n1` in `inc` holds no local lock and one of them writes, so that entry is a write with nothing held. `f1` reads the global `num_mutex` twice, as the argument of the lock call and of the unlock call. Both are reads, so any merge of the two is a read, and the verdict for `num_mutex` is a read-only skip whichever held set the entry keeps. The model keeps the first, which has nothing held.
- `compute_sccs`, `inverse` and `post_order` are not part of this model. The worklist order is an input, required to list every function once. The fixpoint is proved for every call graph, so the singleton-component assertion (src/dataflow/pass.rs:256-258) is not modelled. On a recursive program the model computes a result where the code would panic.
- `transitive_closure` is not part of this model. The thread functions are defined by call paths in the graph.
- `HashMap` and `HashSet` iteration order is not modelled. The order of the global paths and the numbering of mutex ids are inputs. Ids ascend as `BitSet` iteration does, so the greatest matching id wins.
- `ExprPath::is_struct` is not part of this model. The struct paths are an input set.
- The choice of mutex for each struct field (src/dataflow/pass.rs:532-567) depends on `strip_prefix` and on `drain().next()` over a hash set, so it is left out. The model stops at the grouping of struct accesses.
- Verbose printing (src/dataflow/pass.rs:569-604), the global `SUMMARY` store (src/dataflow/pass.rs:639-645) and `def_id_to_item_name` are left out as output and compiler lookups.
- In `src/rewrite.rs`, file I/O, `rustfix` application, span and line computation and the HIR traversal that finds the edits are left out.
- Rewrite.LastIndexOf: `str::rfind` works on byte offsets of UTF-8 text while the model indexes characters; the two agree on ASCII names.
- Export.Names: mutex names are `ExprPath` values. The code renders them with `ExprPath`'s `Display` (src/dataflow/pass.rs:606-610), which is not part of this model.
- Suggestions.AddAt: the `i32` depth is modelled as an unbounded `int`.
- Fixpoint.Solve: the requires `Closed(cg)`, `cg.Keys <= entry.Keys` and `EdgesCovered(cg, prop)` stand for the `unwrap`s at src/dataflow/pass.rs:409-414 (the state, callee set and propagation entry of each popped function and callee). The code meets them by building the call graph with library callees removed and by building a summary, with its propagation map, for every function of the graph. The model takes them as preconditions rather than modelling the panic.
- Fixpoint.Solve: the code's `BitSet` has a fixed domain of `n` ids. The model does not require entry or propagated sets to stay below `n`, and proves entry containment only when the entry sets fit the call edges (`EntryFits`). In the code, entry containment is the assertion at src/dataflow/pass.rs:424, and `PropagationMutexes` models that assertion as a failure.

=== FILE: call_graph.dfy ===
/** The call graph of the user-defined functions: function ids are `nat`s and an edge
    `f -> g` means that `f` contains a call to `g`. */
module CallGraph {

  type Graph = map<nat, set<nat>>

  /** Every callee is itself a user-defined function (a key of the graph). */
  predicate Closed(cg: Graph) {
    forall f :: f in cg ==> cg[f] <= cg.Keys
  }

  /** The callees of `f`; a function outside the graph calls nothing. */
  function Successors(cg: Graph, f: nat): set<nat> {
    if f in cg then cg[f] else {}
  }

  /** Every node mentioned by the graph, as caller or as callee. */
  function Nodes(cg: Graph): (r: set<nat>)
    ensures cg.Keys <= r
    ensures forall f, g :: f in cg && g in cg[f] ==> g in r
  {
    cg.Keys + set f, g | f in cg && g in cg[f] :: g
  }

  /** Drops calls to library functions, i.e. callees that are not keys of the graph,
      and keeps every call between user-defined functions. */
  function RemoveLibraryCallees(cg: Graph): (r: Graph)
    ensures r.Keys == cg.Keys
    ensures Closed(r)
    ensures forall f, g :: f in r ==> (g in r[f] <==> g in cg[f] && g in cg)
  {
    map f | f in cg :: cg[f] * cg.Keys
  }

  /** No user-defined function calls `f`. */
  predicate Uncalled(cg: Graph, f: nat) {
    forall g :: g in cg ==> f !in cg[g]
  }

  /** The functions no other function calls: the roots of the component graph once
      every strongly connected component is a single function. */
  function Roots(cg: Graph): (r: set<nat>)
    ensures forall f :: f in r <==> f in cg && Uncalled(cg, f)
  {
    set f | f in cg && Uncalled(cg, f)
  }

  /** `p` is a walk along call edges. */
  ghost predicate IsPath(cg: Graph, p: seq<nat>) {
    |p| >= 1 && forall i :: 0 <= i < |p| - 1 ==> p[i + 1] in Successors(cg, p[i])
  }

  /** `x` can be reached from one of `sources` in zero or more calls. */
  ghost predicate Reachable(cg: Graph, sources: set<nat>, x: nat) {
    exists p :: IsPath(cg, p) && p[0] in sources && p[|p| - 1] == x
  }

  lemma SourceReachable(cg: Graph, sources: set<nat>, x: nat)
    requires x in sources
    ensures Reachable(cg, sources, x)
  {
    assert IsPath(cg, [x]);
  }

  lemma StepReachable(cg: Graph, sources: set<nat>, x: nat, y: nat)
    requires Reachable(cg, sources, x)
    requires y in Successors(cg, x)
    ensures Reachable(cg, sources, y)
  {
    var p :| IsPath(cg, p) && p[0] in sources && p[|p| - 1] == x;
    var q := p + [y];
    assert IsPath(cg, q);
  }

  /** A set that holds the sources and is closed under calls holds everything reachable. */
  lemma {:induction false} ClosedHoldsReachable(cg: Graph, sources: set<nat>, v: set<nat>, p: seq<nat>)
    requires sources <= v
    requires forall x :: x in v ==> Successors(cg, x) <= v
    requires IsPath(cg, p) && p[0] in sources
    ensures p[|p| - 1] in v
    decreases |p|
  {
    if |p| > 1 {
      var q := p[..|p| - 1];
      assert IsPath(cg, q);
      ClosedHoldsReachable(cg, sources, v, q);
      assert p[|p| - 1] in Successors(cg, q[|q| - 1]);
    }
  }

  lemma ClosedHoldsAllReachable(cg: Graph, sources: set<nat>, v: set<nat>)
    requires sources <= v
    requires forall x :: x in v ==> Successors(cg, x) <= v
    ensures forall x :: Reachable(cg, sources, x) ==> x in v
  {
    forall x | Reachable(cg, sources, x)
      ensures x in v
    {
      var p :| IsPath(cg, p) && p[0] in sources && p[|p| - 1] == x;
      ClosedHoldsReachable(cg, sources, v, p);
    }
  }

  lemma AllStepsReachable(cg: Graph, sources: set<nat>, x: nat, ys: set<nat>)
    requires Reachable(cg, sources, x)
    requires ys <= Successors(cg, x)
    ensures forall y :: y in ys ==> Reachable(cg, sources, y)
  {
    forall y | y in ys
      ensures Reachable(cg, sources, y)
    {
      StepReachable(cg, sources, x, y);
    }
  }

  /** The state of the reachability search: `visited` holds only reachable functions,
      and only functions still in `todo` may have unvisited callees. */
  ghost predicate SearchState(cg: Graph, entries: set<nat>, universe: set<nat>, visited: set<nat>, todo: set<nat>) {
    && todo <= visited <= universe
    && entries <= visited
    && (forall x :: x in visited ==> Reachable(cg, entries, x))
    && (forall x :: x in visited && x !in todo ==> Successors(cg, x) <= visited)
  }

  lemma SearchStep(cg: Graph, entries: set<nat>, universe: set<nat>, visited: set<nat>, todo: set<nat>, x: nat)
    requires SearchState(cg, entries, universe, visited, todo)
    requires Nodes(cg) <= universe
    requires x in todo
    ensures SearchState(cg, entries, universe, visited + (Successors(cg, x) - visited),
                        (todo - {x}) + (Successors(cg, x) - visited))
  {
    var newlyFound := Successors(cg, x) - visited;
    AllStepsReachable(cg, entries, x, newlyFound);
  }

  /** The functions that may run in a spawned thread: none when nothing is spawned,
      otherwise the thread entries and every function they reach through calls. */
  method ThreadFunctions(cg: Graph, entries: set<nat>) returns (r: set<nat>)
    requires entries <= cg.Keys
    ensures entries == {} ==> r == {}
    ensures entries != {} ==> forall x :: x in r <==> Reachable(cg, entries, x)
  {
    if entries == {} {
      return {};
    }
    var universe := Nodes(cg);
    var visited := entries;
    var todo := entries;
    forall x | x in entries
      ensures Reachable(cg, entries, x)
    {
      SourceReachable(cg, entries, x);
    }
    while todo != {}
      invariant SearchState(cg, entries, universe, visited, todo)
      decreases universe - visited, todo
    {
      var x :| x in todo;
      var newlyFound := Successors(cg, x) - visited;
      SearchStep(cg, entries, universe, visited, todo, x);
      visited, todo := visited + newlyFound, (todo - {x}) + newlyFound;
    }
    ClosedHoldsAllReachable(cg, entries, visited);
    r := visited;
  }
}

=== FILE: classify.dfy ===
/** Classification of global variables: which mutex, if any, is held at every access
    to a global path from a function that may run in a spawned thread. */
module Classify {
  import opened Wrappers
  import opened ExprPaths
  import opened Summaries
  import Ordered

  /** One access to a global path: the accessing function, the guard ids held (the
      function's own held set plus its propagated mutexes), and whether it writes. */
  datatype Access = Access(caller: nat, held: set<nat>, write: bool)

  /** One access to a struct field path, kept for field grouping. */
  datatype StructAccess = StructAccess(path: ExprPath, caller: nat, held: set<nat>, write: bool)

  /** Why a global gets no mutex. */
  datatype SkipReason = NoThreadAccess | ReadOnly | NoCommonMutex | NoMatchingShape

  /** The outcome for one global path: no entry, a plain mutex for `mutex_map`, or a
      mutex with the same first index for `array_mutex_map`. */
  datatype Verdict = Skip(reason: SkipReason) | Plain(id: nat) | Array(id: nat)

  /** Every access site of the listed functions, paired with its function. */
  function Sites(fs: seq<nat>, summaries: map<nat, FunctionSummary>): (r: seq<(nat, AccessSite)>)
    requires forall i :: 0 <= i < |fs| ==> fs[i] in summaries
    ensures forall f, a :: (f, a) in r <==> f in fs && a in summaries[f].access
  {
    if |fs| == 0 then []
    else
      var here := seq(|summaries[fs[0]].access|, i requires 0 <= i < |summaries[fs[0]].access| => (fs[0], summaries[fs[0]].access[i]));
      assert forall a :: a in summaries[fs[0]].access ==> (fs[0], a) in here by {
        forall a | a in summaries[fs[0]].access ensures (fs[0], a) in here {
          var k :| 0 <= k < |summaries[fs[0]].access| && summaries[fs[0]].access[k] == a;
          assert here[k] == (fs[0], a);
        }
      }
      here + Sites(fs[1..], summaries)
  }

  /** The access record of a site: the site's held ids joined with the function's
      propagated mutexes. */
  function Record(site: (nat, AccessSite), summaries: map<nat, FunctionSummary>): (r: Access)
    requires site.0 in summaries
    ensures r.caller == site.0 && r.write == site.1.write
    ensures forall x :: x in r.held <==> x in site.1.held || x in summaries[site.0].propagationMutex
  {
    Access(site.0, site.1.held + summaries[site.0].propagationMutex, site.1.write)
  }

  /** Access `a` to global path `p` is recorded by some site. */
  predicate GlobalFromSite(sites: seq<(nat, AccessSite)>, summaries: map<nat, FunctionSummary>, p: ExprPath, a: Access)
    requires forall i :: 0 <= i < |sites| ==> sites[i].0 in summaries
  {
    exists i :: 0 <= i < |sites| && sites[i].1.path == p && a == Record(sites[i], summaries)
  }

  /** The struct access a site is recorded as. */
  function StructRecord(site: (nat, AccessSite), summaries: map<nat, FunctionSummary>): StructAccess
    requires site.0 in summaries
  {
    StructAccess(site.1.path, site.0, Record(site, summaries).held, site.1.write)
  }

  /** Struct access `s` is recorded by some site whose path is a struct path. */
  predicate StructFromSite(sites: seq<(nat, AccessSite)>, summaries: map<nat, FunctionSummary>, structPaths: set<ExprPath>, s: StructAccess)
    requires forall i :: 0 <= i < |sites| ==> sites[i].0 in summaries
  {
    exists i :: 0 <= i < |sites| && sites[i].1.path in structPaths && s == StructRecord(sites[i], summaries)
  }

  /** What the sites before the last one record is recorded by all of them, and the
      last site adds its own record. */
  lemma SitesFromFront(sites: seq<(nat, AccessSite)>, summaries: map<nat, FunctionSummary>, structPaths: set<ExprPath>)
    requires |sites| > 0
    requires forall i :: 0 <= i < |sites| ==> sites[i].0 in summaries
    ensures var front, last := sites[..|sites| - 1], sites[|sites| - 1];
            && (forall p, a :: GlobalFromSite(front, summaries, p, a) ==> GlobalFromSite(sites, summaries, p, a))
            && GlobalFromSite(sites, summaries, last.1.path, Record(last, summaries))
            && (forall s :: StructFromSite(sites, summaries, structPaths, s) <==>
                  StructFromSite(front, summaries, structPaths, s) ||
                  (last.1.path in structPaths && s == StructRecord(last, summaries)))
  {
    var front, last := sites[..|sites| - 1], sites[|sites| - 1];
    assert forall i :: 0 <= i < |sites| - 1 ==> front[i] == sites[i];
    forall p, a | GlobalFromSite(front, summaries, p, a) ensures GlobalFromSite(sites, summaries, p, a) {
      var i :| 0 <= i < |front| && front[i].1.path == p && a == Record(front[i], summaries);
      assert sites[i] == front[i];
    }
    forall s ensures StructFromSite(sites, summaries, structPaths, s) <==>
             StructFromSite(front, summaries, structPaths, s) ||
             (last.1.path in structPaths && s == StructRecord(last, summaries)) {
      if StructFromSite(sites, summaries, structPaths, s) {
        var i :| 0 <= i < |sites| && sites[i].1.path in structPaths && s == StructRecord(sites[i], summaries);
        if i < |front| { assert front[i] == sites[i]; }
      }
      if StructFromSite(front, summaries, structPaths, s) {
        var i :| 0 <= i < |front| && front[i].1.path in structPaths && s == StructRecord(front[i], summaries);
        assert sites[i] == front[i];
      }
    }
  }

  /** Splits access sites into per-path global accesses and struct field accesses; a
      path counts as a struct access when it is one of `structPaths`. */
  function Group(sites: seq<(nat, AccessSite)>, summaries: map<nat, FunctionSummary>, structPaths: set<ExprPath>)
    : (r: (map<ExprPath, seq<Access>>, seq<StructAccess>))
    requires forall i :: 0 <= i < |sites| ==> sites[i].0 in summaries
    ensures forall p :: p in r.0 ==> p !in structPaths
    ensures forall p, a :: p in r.0 && a in r.0[p] ==> GlobalFromSite(sites, summaries, p, a)
    ensures forall i :: 0 <= i < |sites| && sites[i].1.path !in structPaths ==>
              sites[i].1.path in r.0 && Record(sites[i], summaries) in r.0[sites[i].1.path]
    ensures forall s :: s in r.1 <==> StructFromSite(sites, summaries, structPaths, s)
    decreases |sites|
  {
    if |sites| == 0 then (map[], [])
    else
      var front := sites[..|sites| - 1];
      var last := sites[|sites| - 1];
      var (globals, structs) := Group(front, summaries, structPaths);
      var rec := Record(last, summaries);
      SitesFromFront(sites, summaries, structPaths);
      if last.1.path in structPaths then
        (globals, structs + [StructRecord(last, summaries)])
      else
        var prior := if last.1.path in globals then globals[last.1.path] else [];
        (globals[last.1.path := prior + [rec]], structs)
  }

  /** The accesses kept by the thread filter: all of them when no thread is spawned,
      otherwise those from functions that may run in a spawned thread. */
  function Retained(accs: seq<Access>, threadFunctions: set<nat>): (r: seq<Access>)
    ensures forall a :: a in r <==> a in accs && (threadFunctions == {} || a.caller in threadFunctions)
    ensures |r| <= |accs|
  {
    if |accs| == 0 then []
    else
      var rest := Retained(accs[1..], threadFunctions);
      assert forall a :: a in accs <==> a == accs[0] || a in accs[1..];
      if threadFunctions == {} || accs[0].caller in threadFunctions then [accs[0]] + rest else rest
  }

  /** The ids held at every access (the `reduce` of intersections). */
  function CommonHeld(accs: seq<Access>): (r: set<nat>)
    requires |accs| > 0
    ensures forall i :: i in r <==> forall a :: a in accs ==> i in a.held
    decreases |accs|
  {
    if |accs| == 1 then accs[0].held
    else
      var front := accs[..|accs| - 1];
      assert forall a :: a in accs <==> a in front || a == accs[|accs| - 1];
      CommonHeld(front) * accs[|accs| - 1].held
  }

  /** A mutex has the shape a path needs: for a path whose first projection is
      `Index(i)`, a mutex whose first projection is `Index(i)`; otherwise a plain
      variable mutex. */
  predicate ShapeMatches(path: ExprPath, mutex: ExprPath) {
    if FirstIndex(path).Some? then FirstIndex(mutex) == FirstIndex(path) else IsVariable(mutex)
  }

  /** The ids of `ids`, in order, whose mutex has the shape `path` needs. */
  function MatchingIds(ids: seq<nat>, path: ExprPath, inv: map<nat, ExprPath>): (r: seq<nat>)
    requires forall i :: 0 <= i < |ids| ==> ids[i] in inv
    requires Ordered.StrictlyIncreasing(ids)
    ensures forall x :: x in r <==> x in ids && ShapeMatches(path, inv[x])
    ensures Ordered.StrictlyIncreasing(r)
  {
    if |ids| == 0 then []
    else
      var rest := MatchingIds(ids[1..], path, inv);
      assert forall x :: x in rest ==> ids[0] < x by {
        forall x | x in rest ensures ids[0] < x {
          var k :| 0 <= k < |ids[1..]| && ids[1..][k] == x;
          assert ids[k + 1] == x;
        }
      }
      assert forall x :: x in ids <==> x == ids[0] || x in ids[1..];
      if ShapeMatches(path, inv[ids[0]]) then
        Ordered.ConsIncreasing(ids[0], rest);
        [ids[0]] + rest
      else rest
  }

  /** Decides the entry for one global path from its accesses. Among the mutexes held
      at every retained access and of the right shape, the one with the greatest id is
      chosen (the ids are listed in ascending order and the last one is popped). */
  function Decide(path: ExprPath, accs: seq<Access>, threadFunctions: set<nat>, inv: map<nat, ExprPath>): (r: Verdict)
    requires forall a :: a in accs ==> a.held <= inv.Keys
    ensures var kept := Retained(accs, threadFunctions);
            && (|kept| == 0 ==> r == Skip(NoThreadAccess))
            && (|kept| > 0 && (forall a :: a in kept ==> !a.write) ==> r == Skip(ReadOnly))
            && (|kept| > 0 && (exists a :: a in kept && a.write) && CommonHeld(kept) == {} ==> r == Skip(NoCommonMutex))
    ensures !r.Skip? ==>
              && (forall a :: a in accs && (threadFunctions == {} || a.caller in threadFunctions) ==> r.id in a.held)
              && (exists a :: a in accs && (threadFunctions == {} || a.caller in threadFunctions) && a.write)
              && r.id in inv && ShapeMatches(path, inv[r.id])
    ensures r.Array? <==> !r.Skip? && FirstIndex(path).Some?
    ensures !r.Skip? ==> forall j :: j in CommonHeld(Retained(accs, threadFunctions)) && ShapeMatches(path, inv[j]) ==> j <= r.id
  {
    var kept := Retained(accs, threadFunctions);
    if |kept| == 0 then Skip(NoThreadAccess)
    else if forall a :: a in kept ==> !a.write then Skip(ReadOnly)
    else
      var common := CommonHeld(kept);
      if common == {} then Skip(NoCommonMutex)
      else
        var ids: seq<nat> := Ordered.Ascending(common);
        var matching := MatchingIds(ids, path, inv);
        if |matching| == 0 then Skip(NoMatchingShape)
        else
          var id := matching[|matching| - 1];
          assert id in matching;
          Ordered.LastIsGreatest(matching);
          if FirstIndex(path).Some? then Array(id) else Plain(id)
  }

  /** `Decide` picks a mutex exactly when some thread access writes the path and some
      mutex of the right shape is held at every retained access. */
  lemma DecideFindsGuard(path: ExprPath, accs: seq<Access>, threadFunctions: set<nat>, inv: map<nat, ExprPath>, j: nat)
    requires forall a :: a in accs ==> a.held <= inv.Keys
    requires exists a :: a in accs && (threadFunctions == {} || a.caller in threadFunctions) && a.write
    requires forall a :: a in accs && (threadFunctions == {} || a.caller in threadFunctions) ==> j in a.held
    requires j in inv && ShapeMatches(path, inv[j])
    ensures !Decide(path, accs, threadFunctions, inv).Skip?
    ensures j <= Decide(path, accs, threadFunctions, inv).id
  {
    var kept := Retained(accs, threadFunctions);
    var a :| a in accs && (threadFunctions == {} || a.caller in threadFunctions) && a.write;
    assert a in kept;
    DecideOnCommon(path, accs, threadFunctions, inv, a, j);
  }

  /** The chosen id is not skipped once a retained write exists and a shape-matching id
      is common to the retained accesses. */
  lemma DecideOnCommon(path: ExprPath, accs: seq<Access>, threadFunctions: set<nat>, inv: map<nat, ExprPath>,
                       a: Access, j: nat)
    requires forall a :: a in accs ==> a.held <= inv.Keys
    requires a in Retained(accs, threadFunctions) && a.write
    requires j in CommonHeld(Retained(accs, threadFunctions))
    requires j in inv && ShapeMatches(path, inv[j])
    ensures !Decide(path, accs, threadFunctions, inv).Skip?
  {
    var ids: seq<nat> := Ordered.Ascending(CommonHeld(Retained(accs, threadFunctions)));
    assert j in MatchingIds(ids, path, inv);
  }

  /** The verdicts of the listed global paths, in order. */
  function Verdicts(paths: seq<ExprPath>, global: map<ExprPath, seq<Access>>, threadFunctions: set<nat>,
                    inv: map<nat, ExprPath>): (r: seq<Verdict>)
    requires forall i :: 0 <= i < |paths| ==> paths[i] in global
    requires forall p, a :: p in global && a in global[p] ==> a.held <= inv.Keys
    ensures |r| == |paths|
    ensures forall i :: 0 <= i < |paths| ==> r[i] == Decide(paths[i], global[paths[i]], threadFunctions, inv)
    ensures forall i :: 0 <= i < |r| && !r[i].Skip? ==> r[i].id in inv
  {
    seq(|paths|, i requires 0 <= i < |paths| => Decide(paths[i], global[paths[i]], threadFunctions, inv))
  }

  /** The verdict goes to the map being built: `array_mutex_map` or `mutex_map`. */
  predicate Selects(v: Verdict, arrays: bool) {
    if arrays then v.Array? else v.Plain?
  }

  /** The `i`-th path is the last listed one with base `k` whose verdict selects the
      map, and its chosen mutex has base `value`. */
  predicate LastWriter(paths: seq<ExprPath>, verdicts: seq<Verdict>, inv: map<nat, ExprPath>, arrays: bool,
                       i: nat, k: string, value: string)
    requires |verdicts| == |paths|
  {
    && i < |paths| && paths[i].base == k
    && Selects(verdicts[i], arrays) && verdicts[i].id in inv && inv[verdicts[i].id].base == value
    && (forall j :: i < j < |paths| && paths[j].base == k ==> !Selects(verdicts[j], arrays))
  }

  /** A last writer of a prefix stays the last writer when the next path does not
      overwrite its base. */
  lemma LastWriterExtends(paths: seq<ExprPath>, verdicts: seq<Verdict>, inv: map<nat, ExprPath>, arrays: bool,
                          i: nat, k: string, value: string)
    requires |verdicts| == |paths| > 0
    requires LastWriter(paths[..|paths| - 1], verdicts[..|paths| - 1], inv, arrays, i, k, value)
    requires paths[|paths| - 1].base != k || !Selects(verdicts[|paths| - 1], arrays)
    ensures LastWriter(paths, verdicts, inv, arrays, i, k, value)
  {
    var n := |paths| - 1;
    assert paths[..n][i] == paths[i] && verdicts[..n][i] == verdicts[i];
    forall j | i < j < |paths| && paths[j].base == k
      ensures !Selects(verdicts[j], arrays)
    {
      if j < n { assert paths[..n][j] == paths[j] && verdicts[..n][j] == verdicts[j]; }
    }
  }

  lemma AllWritersExtend(paths: seq<ExprPath>, verdicts: seq<Verdict>, inv: map<nat, ExprPath>, arrays: bool,
                         front: seq<ExprPath>, frontVerdicts: seq<Verdict>, rest: map<string, string>, r: map<string, string>)
    requires |verdicts| == |paths| > 0
    requires front == paths[..|paths| - 1] && frontVerdicts == verdicts[..|paths| - 1]
    requires forall k :: k in rest ==> exists i :: LastWriter(front, frontVerdicts, inv, arrays, i, k, rest[k])
    requires forall k :: k in r && (paths[|paths| - 1].base != k || !Selects(verdicts[|paths| - 1], arrays)) ==>
               k in rest && r[k] == rest[k]
    ensures forall k :: k in r && (paths[|paths| - 1].base != k || !Selects(verdicts[|paths| - 1], arrays)) ==>
              exists i :: LastWriter(paths, verdicts, inv, arrays, i, k, r[k])
  {
    forall k | k in r && (paths[|paths| - 1].base != k || !Selects(verdicts[|paths| - 1], arrays))
      ensures exists i :: LastWriter(paths, verdicts, inv, arrays, i, k, r[k])
    {
      var i :| LastWriter(front, frontVerdicts, inv, arrays, i, k, rest[k]);
      LastWriterExtends(paths, verdicts, inv, arrays, i, k, rest[k]);
    }
  }

  /** Visits one more path: its base is (over)written when its verdict selects the map. */
  function Overwrite(m: map<string, string>, path: ExprPath, v: Verdict, inv: map<nat, ExprPath>, arrays: bool)
    : map<string, string>
    requires !v.Skip? ==> v.id in inv
  {
    if Selects(v, arrays) then m[path.base := inv[v.id].base] else m
  }

  /** The step of `BuildMap`: if the map of the first `n` paths covers and is explained by
      them, the map after the last path is covered and explained by all of them. */
  lemma BuildMapStep(paths: seq<ExprPath>, verdicts: seq<Verdict>, inv: map<nat, ExprPath>, arrays: bool,
                     rest: map<string, string>)
    requires |verdicts| == |paths| > 0
    requires forall i :: 0 <= i < |verdicts| && !verdicts[i].Skip? ==> verdicts[i].id in inv
    requires var n := |paths| - 1;
             forall i :: 0 <= i < n && Selects(verdicts[..n][i], arrays) ==> paths[..n][i].base in rest
    requires var n := |paths| - 1;
             forall k :: k in rest ==> exists i :: LastWriter(paths[..n], verdicts[..n], inv, arrays, i, k, rest[k])
    ensures var n := |paths| - 1;
            var r := Overwrite(rest, paths[n], verdicts[n], inv, arrays);
            && (forall i :: 0 <= i < |paths| && Selects(verdicts[i], arrays) ==> paths[i].base in r)
            && (forall k :: k in r ==> exists i :: LastWriter(paths, verdicts, inv, arrays, i, k, r[k]))
  {
    var n := |paths| - 1;
    assert forall i :: 0 <= i < n ==> paths[..n][i] == paths[i] && verdicts[..n][i] == verdicts[i];
    var r := Overwrite(rest, paths[n], verdicts[n], inv, arrays);
    AllWritersExtend(paths, verdicts, inv, arrays, paths[..n], verdicts[..n], rest, r);
    assert Selects(verdicts[n], arrays) ==> LastWriter(paths, verdicts, inv, arrays, n, paths[n].base, r[paths[n].base]);
  }

  /** Builds `array_mutex_map` (when `arrays`) or `mutex_map` from the global paths and
      their verdicts, visited in `paths` order: every path whose verdict selects the map
      has its base mapped, and a later path with the same base overwrites an earlier one. */
  function BuildMap(paths: seq<ExprPath>, verdicts: seq<Verdict>, inv: map<nat, ExprPath>, arrays: bool)
    : (r: map<string, string>)
    requires |verdicts| == |paths|
    requires forall i :: 0 <= i < |verdicts| && !verdicts[i].Skip? ==> verdicts[i].id in inv
    ensures forall i :: 0 <= i < |paths| && Selects(verdicts[i], arrays) ==> paths[i].base in r
    ensures forall k :: k in r ==> exists i :: LastWriter(paths, verdicts, inv, arrays, i, k, r[k])
    decreases |paths|
  {
    if |paths| == 0 then map[]
    else
      var n := |paths| - 1;
      var rest := BuildMap(paths[..n], verdicts[..n], inv, arrays);
      BuildMapStep(paths, verdicts, inv, arrays, rest);
      Overwrite(rest, paths[n], verdicts[n], inv, arrays)
  }
}

=== FILE: export.dfy ===
/** The summary handed to the rewriting stage: for every function, the names of the
    mutexes held at entry, anywhere, and at return, each followed by the names of the
    mutexes its callers propagate to it. */
module Export {
  import opened ExprPaths
  import opened Summaries
  import Ordered

  /** The exported lists of one function. */
  datatype ExportedSummary = ExportedSummary(entry: seq<ExprPath>, node: seq<ExprPath>, ret: seq<ExprPath>)

  /** Naming every id of a listing that holds exactly the ids of `ids` names exactly the
      mutexes of `ids`. */
  lemma NamesOfListing(ids: set<nat>, inv: map<nat, ExprPath>, asc: seq<nat>, r: seq<ExprPath>)
    requires ids <= inv.Keys
    requires forall k :: 0 <= k < |asc| ==> asc[k] in ids
    requires forall i :: i in ids ==> i in asc
    requires |r| == |asc| && forall k :: 0 <= k < |r| ==> r[k] == inv[asc[k]]
    ensures forall x :: x in r <==> exists i :: i in ids && inv[i] == x
  {
    forall x | x in r ensures exists i :: i in ids && inv[i] == x {
      var k :| 0 <= k < |r| && r[k] == x;
      assert asc[k] in ids;
    }
    forall i | i in ids ensures inv[i] in r {
      var k :| 0 <= k < |asc| && asc[k] == i;
      assert r[k] == inv[i];
    }
  }

  /** The mutexes named by `ids`, listed in ascending id order. */
  function Names(ids: set<nat>, inv: map<nat, ExprPath>): (r: seq<ExprPath>)
    requires ids <= inv.Keys
    ensures |r| == |ids|
    ensures forall x :: x in r <==> exists i :: i in ids && inv[i] == x
  {
    var asc: seq<nat> := Ordered.Ascending(ids);
    var r := seq(|asc|, k requires 0 <= k < |asc| => inv[asc[k]]);
    NamesOfListing(ids, inv, asc, r);
    r
  }

  /** A function's own mutex names followed by the names of its propagated mutexes. */
  function WithPropagated(own: set<nat>, prop: set<nat>, inv: map<nat, ExprPath>): (r: seq<ExprPath>)
    requires own <= inv.Keys && prop <= inv.Keys
    ensures |r| == |own| + |prop|
    ensures r[..|own|] == Names(own, inv)
    ensures r[|own|..] == Names(prop, inv)
    ensures forall x :: x in r <==> exists i :: (i in own || i in prop) && inv[i] == x
  {
    var a := Names(own, inv);
    var b := Names(prop, inv);
    assert (a + b)[..|a|] == a;
    assert (a + b)[|a|..] == b;
    assert forall x :: x in a + b <==> x in a || x in b;
    a + b
  }

  /** Exports one summary: each list is the names of its own set followed by the names
      of the propagated mutexes, so every propagated mutex appears in all three lists. */
  function ExportSummary(s: FunctionSummary, inv: map<nat, ExprPath>): (r: ExportedSummary)
    requires s.entry <= inv.Keys && s.node <= inv.Keys && s.ret <= inv.Keys && s.propagationMutex <= inv.Keys
    ensures |r.entry| == |s.entry| + |s.propagationMutex|
    ensures |r.node| == |s.node| + |s.propagationMutex|
    ensures |r.ret| == |s.ret| + |s.propagationMutex|
    ensures r.entry[|s.entry|..] == r.node[|s.node|..] == r.ret[|s.ret|..]
    ensures forall i :: i in s.propagationMutex ==> inv[i] in r.entry && inv[i] in r.node && inv[i] in r.ret
    ensures forall x :: x in r.entry <==> exists i :: (i in s.entry || i in s.propagationMutex) && inv[i] == x
    ensures forall x :: x in r.node <==> exists i :: (i in s.node || i in s.propagationMutex) && inv[i] == x
    ensures forall x :: x in r.ret <==> exists i :: (i in s.ret || i in s.propagationMutex) && inv[i] == x
  {
    ExportedSummary(WithPropagated(s.entry, s.propagationMutex, inv),
                    WithPropagated(s.node, s.propagationMutex, inv),
                    WithPropagated(s.ret, s.propagationMutex, inv))
  }
}

=== FILE: expr_path.dfy ===
/** Access paths: a base name followed by projections, as produced by the front end
    for expressions such as `a[i]`, `s.f` or `p->f`. */
module ExprPaths {
  import opened Wrappers

  /** One projection step of a path. */
  datatype Proj = Field(name: string) | Index(index: string)

  /** A base variable and the projections applied to it, in order. */
  datatype ExprPath = ExprPath(base: string, projections: seq<Proj>)

  /** A path without projections names a plain variable. */
  predicate IsVariable(p: ExprPath) {
    |p.projections| == 0
  }

  /** Removes the last projection and returns it, or returns `None` for a variable. */
  function Pop(p: ExprPath): (r: (ExprPath, Option<Proj>))
    ensures IsVariable(p) <==> r.1 == None
    ensures r.1.Some? ==> r.0.projections + [r.1.value] == p.projections
    ensures r.0.base == p.base
    ensures IsVariable(p) ==> r.0 == p
  {
    if |p.projections| == 0 then (p, None)
    else (ExprPath(p.base, p.projections[..|p.projections| - 1]), Some(p.projections[|p.projections| - 1]))
  }

  /** The same projections applied to a different base. */
  function Rebase(p: ExprPath, base: string): (r: ExprPath)
    ensures r.base == base && r.projections == p.projections
  {
    p.(base := base)
  }

  /** The first projection of a path when it is an index. */
  function FirstIndex(p: ExprPath): (r: Option<string>)
    ensures r.Some? <==> |p.projections| > 0 && p.projections[0].Index?
    ensures r.Some? ==> p.projections[0] == Index(r.value)
  {
    if |p.projections| > 0 && p.projections[0].Index? then Some(p.projections[0].index) else None
  }
}

=== FILE: fixpoint.dfy ===
/** The interprocedural narrowing of held-lock sets over the call graph: every function
    starts from its own entry set (when nothing calls it) or from the full set, and each
    call edge `f -> g` narrows `g` to what `f` holds at the call plus what `f` itself is
    entered with. The result is then split into the function's own entry set and the
    locks its callers propagate to it. */
module Fixpoint {
  import opened Wrappers
  import opened CallGraph

  /** One set of mutex ids per function. */
  type States = map<nat, set<nat>>

  /** For each caller and each user-defined callee, the mutex ids held across the call. */
  type Propagation = map<nat, map<nat, set<nat>>>

  /** The ids of all `n` candidate mutexes (`BitSet::new_filled`). */
  function Full(n: nat): (r: set<nat>)
    ensures forall i: nat :: i in r <==> i < n
  {
    if n == 0 then {} else Full(n - 1) + {n - 1}
  }

  /** Every call edge has a propagated set. */
  predicate EdgesCovered(cg: Graph, prop: Propagation) {
    forall f, g :: f in cg && g in cg[f] ==> f in prop && g in prop[f]
  }

  /** `order` lists every function exactly once. */
  predicate ListsEachOnce(order: seq<nat>, keys: set<nat>) {
    && (forall i, j :: 0 <= i < j < |order| ==> order[i] != order[j])
    && (forall i :: 0 <= i < |order| ==> order[i] in keys)
    && (forall f :: f in keys ==> f in order)
  }

  /** The starting states: a function nothing calls starts from its entry set, every
      other one from the full set. */
  function Initial(cg: Graph, entry: States, n: nat): (r: States)
    requires cg.Keys <= entry.Keys
    ensures r.Keys == cg.Keys
    ensures forall f :: f in Roots(cg) ==> r[f] == entry[f]
    ensures forall f :: f in cg && f !in Roots(cg) ==> r[f] == Full(n)
  {
    map f | f in cg :: if f in Roots(cg) then entry[f] else Full(n)
  }

  /** Pointwise inclusion of states over the same functions. */
  ghost predicate Below(a: States, b: States) {
    a.Keys == b.Keys && forall f :: f in a ==> a[f] <= b[f]
  }

  /** No call edge can narrow `s` any further. */
  ghost predicate Stable(cg: Graph, prop: Propagation, s: States) {
    forall f, g :: f in cg && g in cg[f] && f in prop && g in prop[f] && f in s && g in s ==>
      s[g] <= prop[f][g] + s[f]
  }

  /** The total size of the states of the functions listed in `keys`. */
  function SumSizes(s: States, keys: seq<nat>): nat
    requires forall i :: 0 <= i < |keys| ==> keys[i] in s
  {
    if |keys| == 0 then 0 else |s[keys[0]]| + SumSizes(s, keys[1..])
  }

  /** Narrowing one listed state does not grow the total, and strictly shrinks it when
      the state really changed. */
  lemma {:induction false} SumSizesNarrow(s: States, keys: seq<nat>, g: nat, x: set<nat>)
    requires forall i :: 0 <= i < |keys| ==> keys[i] in s
    requires forall i, j :: 0 <= i < j < |keys| ==> keys[i] != keys[j]
    requires g in s && x <= s[g]
    ensures SumSizes(s[g := x], keys) <= SumSizes(s, keys)
    ensures g in keys && x != s[g] ==> SumSizes(s[g := x], keys) < SumSizes(s, keys)
    decreases |keys|
  {
    if |keys| > 0 {
      SumSizesNarrow(s, keys[1..], g, x);
      if keys[0] == g {
        assert g !in keys[1..];
        SumSizesUnaffected(s, keys[1..], g, x);
        if x != s[g] {
          ProperSubsetSmaller(x, s[g]);
        }
      } else {
        assert g in keys ==> g in keys[1..];
      }
    }
  }

  lemma ProperSubsetSmaller(x: set<nat>, y: set<nat>)
    requires x < y
    ensures |x| < |y|
  {
    assert y == x + (y - x);
    assert y - x != {};
  }

  lemma {:induction false} SumSizesUnaffected(s: States, keys: seq<nat>, g: nat, x: set<nat>)
    requires forall i :: 0 <= i < |keys| ==> keys[i] in s
    requires g in s && g !in keys
    ensures SumSizes(s[g := x], keys) == SumSizes(s, keys)
    decreases |keys|
  {
    if |keys| > 0 {
      SumSizesUnaffected(s, keys[1..], g, x);
    }
  }

  /** Narrowing `g` by the constraint of edge `f -> g` keeps every stable state below the
      current one below it. */
  lemma NarrowKeepsGreater(cg: Graph, prop: Propagation, init: States, abs: States, f: nat, g: nat)
    requires f in cg && g in cg[f] && EdgesCovered(cg, prop)
    requires abs.Keys == init.Keys == cg.Keys && Closed(cg)
    requires forall x: States :: Below(x, init) && Stable(cg, prop, x) ==> Below(x, abs)
    ensures forall x: States :: Below(x, init) && Stable(cg, prop, x) ==>
              Below(x, abs[g := abs[g] * (prop[f][g] + abs[f])])
  {
    forall x: States | Below(x, init) && Stable(cg, prop, x)
      ensures Below(x, abs[g := abs[g] * (prop[f][g] + abs[f])])
    {
      assert Below(x, abs);
      assert x[g] <= prop[f][g] + x[f];
    }
  }

  /** The queue holds distinct functions. */
  predicate QueueOk(cg: Graph, queue: seq<nat>) {
    && (forall i, j :: 0 <= i < j < |queue| ==> queue[i] != queue[j])
    && (forall i :: 0 <= i < |queue| ==> queue[i] in cg)
  }

  /** The states cover the functions, only shrank from the start, and left every root alone. */
  ghost predicate Shaped(cg: Graph, init: States, entry: States, abs: States) {
    && abs.Keys == cg.Keys
    && Below(abs, init)
    && cg.Keys <= entry.Keys
    && (forall h :: h in Roots(cg) ==> abs[h] == entry[h])
  }

  /** Every edge out of a function that is not queued (other than `except`) is stable. */
  ghost predicate SettledExcept(cg: Graph, prop: Propagation, abs: States, queue: seq<nat>, except: set<nat>) {
    forall h, k :: h in cg && h !in except && h !in queue && k in cg[h] && h in abs && k in abs && h in prop && k in prop[h] ==>
      abs[k] <= prop[h][k] + abs[h]
  }

  /** Every stable state below the start is below `abs`. */
  ghost predicate AboveStable(cg: Graph, prop: Propagation, init: States, abs: States) {
    forall x: States :: Below(x, init) && Stable(cg, prop, x) ==> Below(x, abs)
  }

  /** Each function's state holds its own entry set. */
  ghost predicate HoldsEntry(cg: Graph, entry: States, abs: States) {
    forall h :: h in cg && h in entry && h in abs ==> entry[h] <= abs[h]
  }

  /** The entry sets are ids of candidate mutexes and each is held by every caller at
      the call: the condition under which the source's final assertion always holds. */
  ghost predicate EntryFits(cg: Graph, entry: States, prop: Propagation, n: nat) {
    && (forall f :: f in cg && f in entry ==> entry[f] <= Full(n))
    && (forall f, g :: f in cg && g in cg[f] && g in entry && f in prop && g in prop[f] ==> entry[g] <= prop[f][g])
  }

  /** The queue after narrowing `g`: `g` is appended when its state changed and it is
      not queued already. */
  function Requeue(queue: seq<nat>, g: nat, changed: bool): seq<nat> {
    if changed && g !in queue then queue + [g] else queue
  }

  lemma ShapedStep(cg: Graph, init: States, entry: States, abs: States, f: nat, g: nat, x: set<nat>)
    requires Shaped(cg, init, entry, abs) && f in cg && g in cg[f] && Closed(cg) && x <= abs[g]
    ensures Shaped(cg, init, entry, abs[g := x])
  {
    assert g !in Roots(cg);
  }

  lemma QueueStep(cg: Graph, prop: Propagation, abs: States, queue: seq<nat>, f: nat, g: nat)
    requires Closed(cg) && EdgesCovered(cg, prop) && f in cg && g in cg[f] && abs.Keys == cg.Keys
    requires QueueOk(cg, queue) && f !in queue
    ensures var changed := abs[g] * (prop[f][g] + abs[f]) != abs[g];
            QueueOk(cg, Requeue(queue, g, changed)) && f !in Requeue(queue, g, changed)
  {
    if g == f {
      assert abs[g] * (prop[f][g] + abs[f]) == abs[g];
    }
  }

  lemma SettledStep(cg: Graph, prop: Propagation, abs: States, queue: seq<nat>, f: nat, g: nat, st: set<nat>)
    requires Closed(cg) && EdgesCovered(cg, prop) && f in cg && g in cg[f] && abs.Keys == cg.Keys
    requires SettledExcept(cg, prop, abs, queue, {f})
    ensures var x := abs[g] * (prop[f][g] + st);
            SettledExcept(cg, prop, abs[g := x], Requeue(queue, g, x != abs[g]), {f})
  {
  }

  lemma OwnEdgesStep(cg: Graph, prop: Propagation, abs: States, succs: set<nat>, f: nat, g: nat, st: set<nat>)
    requires Closed(cg) && EdgesCovered(cg, prop) && f in cg && g in succs && succs <= cg[f] && abs.Keys == cg.Keys
    requires abs[f] == st
    requires forall k :: k in cg[f] && k !in succs ==> abs[k] <= prop[f][k] + st
    ensures var abs' := abs[g := abs[g] * (prop[f][g] + st)];
            abs'[f] == st && forall k :: k in cg[f] && k !in succs - {g} ==> abs'[k] <= prop[f][k] + st
  {
  }

  lemma EntryStep(cg: Graph, entry: States, prop: Propagation, n: nat, abs: States, f: nat, g: nat, st: set<nat>)
    requires Closed(cg) && EdgesCovered(cg, prop) && f in cg && g in cg[f] && abs.Keys == cg.Keys <= entry.Keys
    requires abs[f] == st
    requires EntryFits(cg, entry, prop, n) ==> HoldsEntry(cg, entry, abs)
    ensures EntryFits(cg, entry, prop, n) ==> HoldsEntry(cg, entry, abs[g := abs[g] * (prop[f][g] + st)])
  {
  }

  lemma InitialHoldsEntry(cg: Graph, entry: States, prop: Propagation, n: nat)
    requires cg.Keys <= entry.Keys
    ensures EntryFits(cg, entry, prop, n) ==> HoldsEntry(cg, entry, Initial(cg, entry, n))
  {
  }

  lemma SettledIsStable(cg: Graph, prop: Propagation, abs: States)
    requires EdgesCovered(cg, prop) && abs.Keys == cg.Keys
    requires SettledExcept(cg, prop, abs, [], {})
    ensures Stable(cg, prop, abs)
  {
  }

  /** Totals that never grow, with the queue unchanged while the total stays put. */
  lemma SizeStep(total0: nat, total: nat, total': nat, queue0: seq<nat>, queue: seq<nat>, queue': seq<nat>)
    requires total <= total0 && (total == total0 ==> queue == queue0)
    requires total' <= total && (total' == total ==> queue' == queue)
    ensures total' <= total0 && (total' == total0 ==> queue' == queue0)
  {
  }

  /** The invariant of one round while `f` narrows its callees: the remaining callees
      are `succs`, `f`'s own state is still `st`, and the edges to callees already done
      are stable. */
  ghost predicate RoundInv(cg: Graph, prop: Propagation, init: States, entry: States, n: nat, order: seq<nat>,
                           f: nat, st: set<nat>, abs0: States, queue0: seq<nat>,
                           succs: set<nat>, abs: States, queue: seq<nat>) {
    && Closed(cg) && EdgesCovered(cg, prop) && f in cg
    && ListsEachOnce(order, cg.Keys) && abs0.Keys == cg.Keys
    && Shaped(cg, init, entry, abs)
    && succs <= cg[f]
    && abs[f] == st
    && QueueOk(cg, queue) && f !in queue
    && SettledExcept(cg, prop, abs, queue, {f})
    && (forall k :: k in cg[f] && k !in succs ==> abs[k] <= prop[f][k] + st)
    && AboveStable(cg, prop, init, abs)
    && (EntryFits(cg, entry, prop, n) ==> HoldsEntry(cg, entry, abs))
    && SumSizes(abs, order) <= SumSizes(abs0, order)
    && (SumSizes(abs, order) == SumSizes(abs0, order) ==> queue == queue0)
  }

  /** Narrowing callee `g` keeps the shape and `f`'s own state, and makes edge `f -> g`
      stable. */
  lemma RoundStepShape(cg: Graph, prop: Propagation, init: States, entry: States, n: nat, order: seq<nat>,
                       f: nat, st: set<nat>, abs0: States, queue0: seq<nat>,
                       succs: set<nat>, abs: States, queue: seq<nat>, g: nat)
    requires RoundInv(cg, prop, init, entry, n, order, f, st, abs0, queue0, succs, abs, queue) && g in succs
    ensures var abs' := abs[g := abs[g] * (prop[f][g] + st)];
            && Shaped(cg, init, entry, abs')
            && abs'[f] == st
            && (forall k :: k in cg[f] && k !in succs - {g} ==> abs'[k] <= prop[f][k] + st)
  {
    ShapedStep(cg, init, entry, abs, f, g, abs[g] * (prop[f][g] + st));
    OwnEdgesStep(cg, prop, abs, succs, f, g, st);
  }

  /** Narrowing callee `g` keeps the queue well formed and the other edges settled. */
  lemma RoundStepQueue(cg: Graph, prop: Propagation, init: States, entry: States, n: nat, order: seq<nat>,
                       f: nat, st: set<nat>, abs0: States, queue0: seq<nat>,
                       succs: set<nat>, abs: States, queue: seq<nat>, g: nat)
    requires RoundInv(cg, prop, init, entry, n, order, f, st, abs0, queue0, succs, abs, queue) && g in succs
    ensures var narrowed := abs[g] * (prop[f][g] + st);
            var queue' := Requeue(queue, g, narrowed != abs[g]);
            && QueueOk(cg, queue') && f !in queue'
            && SettledExcept(cg, prop, abs[g := narrowed], queue', {f})
  {
    QueueStep(cg, prop, abs, queue, f, g);
    SettledStep(cg, prop, abs, queue, f, g, st);
  }

  /** Narrowing callee `g` keeps every stable state below, keeps the entry sets, and
      shrinks the total size whenever it queues `g`. */
  lemma RoundStepBounds(cg: Graph, prop: Propagation, init: States, entry: States, n: nat, order: seq<nat>,
                        f: nat, st: set<nat>, abs0: States, queue0: seq<nat>,
                        succs: set<nat>, abs: States, queue: seq<nat>, g: nat)
    requires RoundInv(cg, prop, init, entry, n, order, f, st, abs0, queue0, succs, abs, queue) && g in succs
    ensures var narrowed := abs[g] * (prop[f][g] + st);
            var abs', queue' := abs[g := narrowed], Requeue(queue, g, narrowed != abs[g]);
            && AboveStable(cg, prop, init, abs')
            && (EntryFits(cg, entry, prop, n) ==> HoldsEntry(cg, entry, abs'))
            && SumSizes(abs', order) <= SumSizes(abs0, order)
            && (SumSizes(abs', order) == SumSizes(abs0, order) ==> queue' == queue0)
  {
    var narrowed := abs[g] * (prop[f][g] + st);
    var abs', queue' := abs[g := narrowed], Requeue(queue, g, narrowed != abs[g]);
    EntryStep(cg, entry, prop, n, abs, f, g, st);
    NarrowKeepsGreater(cg, prop, init, abs, f, g);
    assert g in order;
    SumSizesNarrow(abs, order, g, narrowed);
    assert SumSizes(abs', order) == SumSizes(abs, order) ==> queue' == queue;
    SizeStep(SumSizes(abs0, order), SumSizes(abs, order), SumSizes(abs', order), queue0, queue, queue');
  }

  lemma RoundStep(cg: Graph, prop: Propagation, init: States, entry: States, n: nat, order: seq<nat>,
                  f: nat, st: set<nat>, abs0: States, queue0: seq<nat>,
                  succs: set<nat>, abs: States, queue: seq<nat>, g: nat)
    requires RoundInv(cg, prop, init, entry, n, order, f, st, abs0, queue0, succs, abs, queue) && g in succs
    ensures var narrowed := abs[g] * (prop[f][g] + st);
            RoundInv(cg, prop, init, entry, n, order, f, st, abs0, queue0,
                     succs - {g}, abs[g := narrowed], Requeue(queue, g, narrowed != abs[g]))
  {
    RoundStepShape(cg, prop, init, entry, n, order, f, st, abs0, queue0, succs, abs, queue, g);
    RoundStepQueue(cg, prop, init, entry, n, order, f, st, abs0, queue0, succs, abs, queue, g);
    RoundStepBounds(cg, prop, init, entry, n, order, f, st, abs0, queue0, succs, abs, queue, g);
  }

  /** The states after one round from `f`: the state of each callee `g` keeps only the
      locks that the edge passes on, those held across the call plus `f`'s own state;
      every other state is as it was. */
  function Narrowed(cg: Graph, prop: Propagation, f: nat, abs0: States): (r: States)
    requires EdgesCovered(cg, prop) && f in cg && f in abs0
    ensures r.Keys == abs0.Keys
  {
    map h | h in abs0 :: if h in cg[f] then abs0[h] * (prop[f][h] + abs0[f]) else abs0[h]
  }

  /** What the round has done so far: each callee already visited is narrowed by the
      edge from `f` (using `f`'s state `st` at the pop), every other state is unchanged,
      and the queue is the old queue followed by the visited callees whose state
      changed and that were not queued already. */
  ghost predicate RoundProgress(cg: Graph, prop: Propagation, f: nat, st: set<nat>, abs0: States, queue0: seq<nat>,
                                succs: set<nat>, abs: States, queue: seq<nat>) {
    && f in cg && f in abs0 && st == abs0[f] && abs.Keys == abs0.Keys
    && (forall h :: h in abs0 ==> abs[h] <= abs0[h])
    && (forall h :: h in abs0 && (h !in cg[f] || h in succs) ==> abs[h] == abs0[h])
    && (forall g :: g in cg[f] && g !in succs && g in abs0 && f in prop && g in prop[f] ==>
          abs[g] == abs0[g] * (prop[f][g] + st))
    && |queue0| <= |queue| && queue[..|queue0|] == queue0
    && (forall i :: |queue0| <= i < |queue| ==>
          queue[i] in cg[f] && queue[i] !in succs && queue[i] in abs0 && abs[queue[i]] != abs0[queue[i]])
    && (forall g :: g in cg[f] && g !in succs && g in abs0 && abs[g] != abs0[g] ==> g in queue)
  }

  /** Narrowing callee `g` extends the round's progress by `g`. */
  lemma ProgressStep(cg: Graph, prop: Propagation, f: nat, st: set<nat>, abs0: States, queue0: seq<nat>,
                     succs: set<nat>, abs: States, queue: seq<nat>, g: nat)
    requires RoundProgress(cg, prop, f, st, abs0, queue0, succs, abs, queue)
    requires EdgesCovered(cg, prop) && g in succs && succs <= cg[f] && abs0.Keys == cg.Keys && Closed(cg)
    ensures var narrowed := abs[g] * (prop[f][g] + st);
            RoundProgress(cg, prop, f, st, abs0, queue0, succs - {g}, abs[g := narrowed],
                          Requeue(queue, g, narrowed != abs[g]))
  {
    var narrowed := abs[g] * (prop[f][g] + st);
    var abs', queue' := abs[g := narrowed], Requeue(queue, g, narrowed != abs[g]);
    assert abs[g] == abs0[g];
    assert queue'[..|queue0|] == queue0 by {
      if queue' != queue { assert queue'[..|queue|] == queue; }
    }
    forall i | |queue0| <= i < |queue'|
      ensures queue'[i] in cg[f] && queue'[i] !in succs - {g} && queue'[i] in abs0 && abs'[queue'[i]] != abs0[queue'[i]]
    {
      if i < |queue| {
        assert queue'[i] == queue[i] && queue[i] != g;
      }
    }
  }

  /** Once every callee is visited, the round has computed `Narrowed`. */
  lemma ProgressDone(cg: Graph, prop: Propagation, f: nat, abs0: States, queue0: seq<nat>, abs: States, queue: seq<nat>)
    requires f in abs0 && EdgesCovered(cg, prop)
    requires RoundProgress(cg, prop, f, abs0[f], abs0, queue0, {}, abs, queue)
    ensures abs == Narrowed(cg, prop, f, abs0)
  {
    var r := Narrowed(cg, prop, f, abs0);
    forall h | h in abs ensures abs[h] == r[h] {
      if h in cg[f] {
        assert abs[h] == abs0[h] * (prop[f][h] + abs0[f]);
      }
    }
  }

  /** At the start of a round nothing has been done. */
  lemma ProgressStart(cg: Graph, prop: Propagation, f: nat, abs0: States, queue0: seq<nat>)
    requires f in cg && abs0.Keys == cg.Keys
    ensures RoundProgress(cg, prop, f, abs0[f], abs0, queue0, cg[f], abs0, queue0)
  {
    assert queue0[..|queue0|] == queue0;
  }

  /** One round of the fixpoint: the popped function `f` narrows each of its callees,
      and a callee whose state changed is queued unless it is queued already. */
  method NarrowCallees(cg: Graph, prop: Propagation, ghost init: States, ghost entry: States, ghost n: nat,
                       order: seq<nat>, f: nat, abs0: States, queue0: seq<nat>)
    returns (abs: States, queue: seq<nat>)
    requires Closed(cg) && EdgesCovered(cg, prop) && f in cg
    requires ListsEachOnce(order, cg.Keys)
    requires Shaped(cg, init, entry, abs0)
    requires QueueOk(cg, queue0) && f !in queue0
    requires SettledExcept(cg, prop, abs0, queue0, {f})
    requires AboveStable(cg, prop, init, abs0)
    requires EntryFits(cg, entry, prop, n) ==> HoldsEntry(cg, entry, abs0)
    ensures Shaped(cg, init, entry, abs)
    ensures QueueOk(cg, queue) && f !in queue
    ensures SettledExcept(cg, prop, abs, queue, {})
    ensures AboveStable(cg, prop, init, abs)
    ensures EntryFits(cg, entry, prop, n) ==> HoldsEntry(cg, entry, abs)
    ensures SumSizes(abs, order) <= SumSizes(abs0, order)
    ensures SumSizes(abs, order) == SumSizes(abs0, order) ==> queue == queue0
    ensures forall h :: h in abs0 ==> abs[h] <= abs0[h]
    ensures forall h :: h in abs0 && h !in cg[f] ==> abs[h] == abs0[h]
    ensures abs == Narrowed(cg, prop, f, abs0)
    ensures |queue0| <= |queue| && queue[..|queue0|] == queue0
    ensures forall i :: |queue0| <= i < |queue| ==> queue[i] in cg[f] && abs[queue[i]] != abs0[queue[i]]
    ensures forall g :: g in cg[f] && abs[g] != abs0[g] ==> g in queue
  {
    abs, queue := abs0, queue0;
    var st := abs[f];
    var succs := cg[f];
    ProgressStart(cg, prop, f, abs0, queue0);
    while succs != {}
      invariant RoundInv(cg, prop, init, entry, n, order, f, st, abs0, queue0, succs, abs, queue)
      invariant RoundProgress(cg, prop, f, st, abs0, queue0, succs, abs, queue)
      decreases succs
    {
      var g :| g in succs;
      var narrowed := abs[g] * (prop[f][g] + st);
      var changed := narrowed != abs[g];
      RoundStep(cg, prop, init, entry, n, order, f, st, abs0, queue0, succs, abs, queue, g);
      ProgressStep(cg, prop, f, st, abs0, queue0, succs, abs, queue, g);
      succs := succs - {g};
      abs := abs[g := narrowed];
      if changed && g !in queue {
        queue := queue + [g];
      }
    }
    ProgressDone(cg, prop, f, abs0, queue0, abs, queue);
  }

  /** The invariant of the worklist loop. */
  ghost predicate SolveInv(cg: Graph, prop: Propagation, init: States, entry: States, n: nat,
                           abs: States, queue: seq<nat>) {
    && Shaped(cg, init, entry, abs)
    && QueueOk(cg, queue)
    && SettledExcept(cg, prop, abs, queue, {})
    && AboveStable(cg, prop, init, abs)
    && (EntryFits(cg, entry, prop, n) ==> HoldsEntry(cg, entry, abs))
  }

  /** Once the queue is empty the states are the greatest stable ones below the start. */
  lemma SolveDone(cg: Graph, prop: Propagation, entry: States, n: nat, abs: States)
    requires EdgesCovered(cg, prop) && cg.Keys <= entry.Keys
    requires Shaped(cg, Initial(cg, entry, n), entry, abs)
    requires SettledExcept(cg, prop, abs, [], {})
    requires AboveStable(cg, prop, Initial(cg, entry, n), abs)
    requires EntryFits(cg, entry, prop, n) ==> HoldsEntry(cg, entry, abs)
    ensures abs.Keys == cg.Keys
    ensures Below(abs, Initial(cg, entry, n))
    ensures forall f :: f in Roots(cg) ==> abs[f] == entry[f]
    ensures Stable(cg, prop, abs)
    ensures forall x: States :: Below(x, Initial(cg, entry, n)) && Stable(cg, prop, x) ==> Below(x, abs)
    ensures EntryFits(cg, entry, prop, n) ==> forall f :: f in cg ==> entry[f] <= abs[f]
  {
    SettledIsStable(cg, prop, abs);
  }

  /** Popping the head `f` of the queue: the rest is a queue without `f`, and only edges
      out of `f` or out of queued functions may be unsettled. */
  lemma PopStep(cg: Graph, prop: Propagation, abs: States, queue: seq<nat>)
    requires |queue| > 0 && QueueOk(cg, queue)
    requires SettledExcept(cg, prop, abs, queue, {})
    ensures QueueOk(cg, queue[1..]) && queue[0] !in queue[1..]
    ensures SettledExcept(cg, prop, abs, queue[1..], {queue[0]})
  {
    assert forall h :: h in queue <==> h == queue[0] || h in queue[1..];
  }

  /** The worklist loop: pops functions until the queue is empty. */
  method Drain(cg: Graph, prop: Propagation, init: States, ghost entry: States, ghost n: nat, order: seq<nat>)
    returns (abs: States)
    requires Closed(cg) && EdgesCovered(cg, prop) && ListsEachOnce(order, cg.Keys)
    requires SolveInv(cg, prop, init, entry, n, init, order)
    ensures Shaped(cg, init, entry, abs)
    ensures SettledExcept(cg, prop, abs, [], {})
    ensures AboveStable(cg, prop, init, abs)
    ensures EntryFits(cg, entry, prop, n) ==> HoldsEntry(cg, entry, abs)
  {
    abs := init;
    var queue := order;
    while |queue| > 0
      invariant SolveInv(cg, prop, init, entry, n, abs, queue)
      decreases SumSizes(abs, order), |queue|
    {
      var f := queue[0];
      PopStep(cg, prop, abs, queue);
      abs, queue := NarrowCallees(cg, prop, init, entry, n, order, f, abs, queue[1..]);
    }
  }

  /** The worklist fixpoint over the call graph. The queue starts as `order` (a reverse
      post-order of the call graph); popping `f` narrows each callee `g` by
      `prop[f][g] + abs[f]`, and `g` is queued again only when its state changed and it is
      not queued already. The result is the greatest stable assignment below the
      starting states, so it does not depend on `order`. */
  method Solve(cg: Graph, order: seq<nat>, entry: States, prop: Propagation, n: nat) returns (abs: States)
    requires Closed(cg)
    requires cg.Keys <= entry.Keys
    requires EdgesCovered(cg, prop)
    requires ListsEachOnce(order, cg.Keys)
    ensures abs.Keys == cg.Keys
    ensures Below(abs, Initial(cg, entry, n))
    ensures forall f :: f in Roots(cg) ==> abs[f] == entry[f]
    ensures Stable(cg, prop, abs)
    ensures forall x: States :: Below(x, Initial(cg, entry, n)) && Stable(cg, prop, x) ==> Below(x, abs)
    ensures EntryFits(cg, entry, prop, n) ==> forall f :: f in cg ==> entry[f] <= abs[f]
  {
    var init := Initial(cg, entry, n);
    InitialHoldsEntry(cg, entry, prop, n);
    abs := Drain(cg, prop, init, entry, n, order);
    SolveDone(cg, prop, entry, n, abs);
  }

  /** The locks a function holds only because its callers hold them: the final state
      minus the function's own entry set. The source asserts that the final state
      contains the entry set; when it does not, the result is a failure. */
  function PropagationMutexes(abs: States, entry: States): (r: Result<States>)
    requires abs.Keys <= entry.Keys
    ensures r.Success? <==> forall f :: f in abs ==> entry[f] <= abs[f]
    ensures r.Success? ==> r.value.Keys == abs.Keys
    ensures r.Success? ==> forall f :: f in abs ==> r.value[f] !! entry[f] && r.value[f] + entry[f] == abs[f]
  {
    if forall f :: f in abs ==> entry[f] <= abs[f] then
      Success(map f | f in abs :: abs[f] - entry[f])
    else
      Failure("final state does not contain the entry mutexes")
  }
}

=== FILE: ordered.dfy ===
/** Ordered enumeration of finite integer sets: the iteration order of a `BitSet`
    (ascending ids) and of a `BTreeMap` (ascending keys). */
module Ordered {

  /** `s` is listed in strictly increasing order. */
  predicate StrictlyIncreasing(s: seq<int>) {
    forall i, j :: 0 <= i < j < |s| ==> s[i] < s[j]
  }

  /** Some element of a non-empty set. */
  ghost function PickOne<T>(s: set<T>): (x: T)
    requires s != {}
    ensures x in s
  {
    var nonEmpty :| nonEmpty in s; nonEmpty
  }

  lemma {:induction false} MinExists(s: set<int>)
    requires s != {}
    ensures exists m :: m in s && forall y :: y in s ==> m <= y
    decreases |s|
  {
    var x := PickOne(s);
    if s - {x} == {} {
      forall y | y in s ensures x <= y {
        assert y !in s - {x};
      }
    } else {
      MinExists(s - {x});
      var m :| m in s - {x} && forall y :: y in s - {x} ==> m <= y;
      if x < m {
        forall y | y in s ensures x <= y {
          if y != x { assert y in s - {x}; }
        }
      } else {
        forall y | y in s ensures m <= y {
          if y != x { assert y in s - {x}; }
        }
      }
    }
  }

  /** The least element of a non-empty finite set. */
  function Min(s: set<int>): (m: int)
    requires s != {}
    ensures m in s
    ensures forall y :: y in s ==> m <= y
  {
    MinExists(s);
    var m :| m in s && forall y :: y in s ==> m <= y;
    m
  }

  /** The elements of `s` in ascending order. */
  function Ascending(s: set<int>): (r: seq<int>)
    ensures |r| == |s|
    ensures forall i :: 0 <= i < |r| ==> r[i] in s
    ensures forall x :: x in s ==> x in r
    ensures StrictlyIncreasing(r)
    decreases |s|
  {
    if s == {} then []
    else
      var m := Min(s);
      var rest := Ascending(s - {m});
      assert forall y :: y in rest ==> m < y;
      ConsIncreasing(m, rest);
      [m] + rest
  }

  /** The last element of a strictly increasing sequence is its greatest element. */
  lemma LastIsGreatest(s: seq<int>)
    requires |s| > 0 && StrictlyIncreasing(s)
    ensures forall x :: x in s ==> x <= s[|s| - 1]
  {
    forall x | x in s ensures x <= s[|s| - 1] {
      var k :| 0 <= k < |s| && s[k] == x;
      if k < |s| - 1 { assert s[k] < s[|s| - 1]; }
    }
  }

  lemma ConsIncreasing(x: int, s: seq<int>)
    requires StrictlyIncreasing(s)
    requires forall y :: y in s ==> x < y
    ensures StrictlyIncreasing([x] + s)
  {
    var t := [x] + s;
    forall i, j | 0 <= i < j < |t| ensures t[i] < t[j] {
      if i > 0 { assert t[i] == s[i - 1] && t[j] == s[j - 1]; }
      else { assert t[j] == s[j - 1]; assert t[j] in s; }
    }
  }
}

=== FILE: possible_mutexes.dfy ===
/** The candidate mutex expressions: every path passed to `pthread_mutex_lock` or
    `pthread_mutex_unlock`, plus, for a lock on a field of a parameter, the same
    field of every argument of that parameter's type seen at some call. */
module PossibleMutexes {
  import opened Wrappers
  import opened ExprPaths
  import Ordered

  /** A function's parameters: (name, pointee type name), in declaration order. */
  type Params = seq<(string, string)>

  /** The type of the first parameter called `name`. */
  function ParamType(params: Params, name: string): (r: Option<string>)
    ensures r.None? <==> forall i :: 0 <= i < |params| ==> params[i].0 != name
    ensures r.Some? ==> exists i :: 0 <= i < |params| && params[i] == (name, r.value) &&
                                    forall j :: 0 <= j < i ==> params[j].0 != name
  {
    if |params| == 0 then None
    else if params[0].0 == name then Some(params[0].1)
    else
      var r := ParamType(params[1..], name);
      assert r.Some? ==> exists i :: 1 <= i < |params| && params[i] == (name, r.value) &&
                                     forall j :: 0 <= j < i ==> params[j].0 != name by {
        if r.Some? {
          var i :| 0 <= i < |params[1..]| && params[1..][i] == (name, r.value) &&
                   forall j :: 0 <= j < i ==> params[1..][j].0 != name;
          assert params[i + 1] == (name, r.value);
          assert forall j :: 0 <= j < i + 1 ==> params[j].0 != name by {
            forall j | 0 <= j < i + 1 ensures params[j].0 != name {
              if j > 0 { assert params[j] == params[1..][j - 1]; }
            }
          }
        }
      }
      r
  }

  /** `arg` is an argument passed somewhere for the parameter called `name`:
      the parameter exists and `arg` was seen as an argument of its type. */
  predicate ArgumentFor(params: Params, name: string, argsPerType: map<string, set<string>>, arg: string) {
    var t := ParamType(params, name);
    t.Some? && t.value in argsPerType && arg in argsPerType[t.value]
  }

  /** `x` is a non-variable expression of `ms` re-based onto an argument of the type
      of the parameter the expression starts from. */
  ghost predicate RebasedFrom(ms: set<ExprPath>, params: Params, argsPerType: map<string, set<string>>, x: ExprPath) {
    exists m :: m in ms && !IsVariable(m) && x == Rebase(m, x.base) && ArgumentFor(params, m.base, argsPerType, x.base)
  }

  /** What one function contributes: its own lock expressions, and each non-variable one
      whose base is a parameter re-based onto every argument of that parameter's type. */
  function Contribution(ms: set<ExprPath>, params: Params, argsPerType: map<string, set<string>>): (r: set<ExprPath>)
    ensures ms <= r
    ensures forall x :: x in r - ms ==> !IsVariable(x)
    ensures forall x :: x in r - ms ==> RebasedFrom(ms, params, argsPerType, x)
    ensures forall m, a :: m in ms && !IsVariable(m) && ArgumentFor(params, m.base, argsPerType, a) ==> Rebase(m, a) in r
  {
    var r := ms + set m, a | m in ms && !IsVariable(m) && ParamType(params, m.base).Some?
                             && ParamType(params, m.base).value in argsPerType
                             && a in argsPerType[ParamType(params, m.base).value] :: Rebase(m, a);
    forall x | x in r - ms ensures RebasedFrom(ms, params, argsPerType, x) {
      var m, a :| m in ms && !IsVariable(m) && ParamType(params, m.base).Some?
                  && ParamType(params, m.base).value in argsPerType
                  && a in argsPerType[ParamType(params, m.base).value] && x == Rebase(m, a);
      assert x == Rebase(m, x.base);
    }
    r
  }

  /** `x` is locked or unlocked in some function. */
  predicate LockedSomewhere(mutexes: map<nat, set<ExprPath>>, x: ExprPath) {
    exists f :: f in mutexes && x in mutexes[f]
  }

  /** `x` is a non-variable lock expression of some function re-based onto an argument
      of the type of the parameter the expression starts from. */
  ghost predicate RebasedSomewhere(mutexes: map<nat, set<ExprPath>>, params: map<nat, Params>,
                                   argsPerType: map<string, set<string>>, x: ExprPath) {
    exists f, m :: f in mutexes && f in params && m in mutexes[f] && !IsVariable(m)
                   && x == Rebase(m, x.base) && ArgumentFor(params[f], m.base, argsPerType, x.base)
  }

  function FromFunctions(fs: set<nat>, mutexes: map<nat, set<ExprPath>>, params: map<nat, Params>,
                         argsPerType: map<string, set<string>>): (r: set<ExprPath>)
    requires fs <= mutexes.Keys <= params.Keys
    ensures forall x :: x in r ==> LockedSomewhere(mutexes, x) || RebasedSomewhere(mutexes, params, argsPerType, x)
    ensures forall f, m :: f in fs && m in mutexes[f] ==> m in r
    ensures forall f, m, a :: f in fs && m in mutexes[f] && !IsVariable(m) && ArgumentFor(params[f], m.base, argsPerType, a)
              ==> Rebase(m, a) in r
    decreases |fs|
  {
    if fs == {} then {}
    else
      var f: nat := Ordered.Min(fs);
      var c := Contribution(mutexes[f], params[f], argsPerType);
      assert forall x :: x in c ==> LockedSomewhere(mutexes, x) || RebasedSomewhere(mutexes, params, argsPerType, x) by {
        forall x | x in c
          ensures LockedSomewhere(mutexes, x) || RebasedSomewhere(mutexes, params, argsPerType, x)
        {
          if x !in mutexes[f] {
            assert RebasedFrom(mutexes[f], params[f], argsPerType, x);
          }
        }
      }
      c + FromFunctions(fs - {f}, mutexes, params, argsPerType)
  }

  /** The set of candidate mutex expressions, characterised both ways: the lock
      expressions of every function, and the re-basings of non-variable ones onto the
      arguments of their base parameter's type, and nothing else. */
  function PossibleMutexes(mutexes: map<nat, set<ExprPath>>, params: map<nat, Params>,
                           argsPerType: map<string, set<string>>): (r: set<ExprPath>)
    requires mutexes.Keys <= params.Keys
    ensures forall x :: x in r <==> LockedSomewhere(mutexes, x) || RebasedSomewhere(mutexes, params, argsPerType, x)
    ensures forall x :: x in r && !LockedSomewhere(mutexes, x) ==> !IsVariable(x)
  {
    var r := FromFunctions(mutexes.Keys, mutexes, params, argsPerType);
    forall x | RebasedSomewhere(mutexes, params, argsPerType, x)
      ensures x in r
    {
      var f, m :| f in mutexes && f in params && m in mutexes[f] && !IsVariable(m)
                  && x == Rebase(m, x.base) && ArgumentFor(params[f], m.base, argsPerType, x.base);
      assert Rebase(m, x.base) in r;
    }
    r
  }

  /** `inv` numbers the candidate mutexes: the ids are `0` up to the number of candidates,
      each id names a candidate, and no two ids name the same one. Which candidate gets
      which id follows the set's iteration order, which is not modelled. */
  ghost predicate Numbering(candidates: set<ExprPath>, inv: map<nat, ExprPath>) {
    && (forall i :: i in inv <==> i < |candidates|)
    && (forall i :: i in inv ==> inv[i] in candidates)
    && (forall i, j :: i in inv && j in inv && inv[i] == inv[j] ==> i == j)
  }
}

=== FILE: rewrite.dfy ===
/** Naming helpers of the rewriting stage: guard variable names for mutex expressions,
    generated struct names, and comma-joined lists and tuples. */
module Rewrite {
  import opened Wrappers

  /** The position of the last occurrence of `c` in `s` (`str::rfind` with a char). */
  function LastIndexOf(s: string, c: char): (r: Option<nat>)
    ensures r.None? <==> c !in s
    ensures r.Some? ==> r.value < |s| && s[r.value] == c
    ensures r.Some? ==> forall k :: r.value < k < |s| ==> s[k] != c
  {
    if |s| == 0 then None
    else if s[|s| - 1] == c then Some(|s| - 1)
    else
      var r := LastIndexOf(s[..|s| - 1], c);
      assert s == s[..|s| - 1] + [s[|s| - 1]];
      r
  }

  /** `s` has the two characters `->` at position `i`. */
  predicate ArrowAt(s: string, i: int) {
    0 <= i && i + 1 < |s| && s[i] == '-' && s[i + 1] == '>'
  }

  /** The position of the last occurrence of `->` in `s` (`str::rfind("->")`). */
  function LastArrow(s: string): (r: Option<nat>)
    ensures r.None? <==> forall i :: !ArrowAt(s, i)
    ensures r.Some? ==> ArrowAt(s, r.value) && forall i :: r.value < i ==> !ArrowAt(s, i)
  {
    if |s| < 2 then None
    else if ArrowAt(s, |s| - 2) then Some(|s| - 2)
    else
      var front := s[..|s| - 1];
      assert forall i :: i != |s| - 2 ==> (ArrowAt(s, i) <==> ArrowAt(front, i));
      LastArrow(front)
  }

  /** The names `guard_of` accepts: a name with a `[` also has a `]` after its last `[`
      (otherwise the source panics on `unwrap` or on the slice). */
  predicate Guardable(m: string) {
    var i := LastIndexOf(m, '[');
    var j := LastIndexOf(m, ']');
    i.Some? ==> j.Some? && i.value < j.value
  }

  /** The name of the guard variable for mutex expression `m`: for `a[i]` it is
      `a_i_guard` (split at the last `[` and the last `]`), for `s.m` it is `s_m_guard`
      (split at the last `.`), for `p->m` it is `p_m_guard` (split at the last `->`),
      and for a plain name `m` it is `m_guard`. The cases are tried in that order. */
  function GuardOf(m: string): (r: string)
    requires Guardable(m)
    ensures |r| >= 6 && r[|r| - 6..] == "_guard"
    ensures '[' !in m && '.' !in m && LastArrow(m).None? ==> r == m + "_guard"
  {
    match LastIndexOf(m, '[')
    case Some(i) =>
      var j := LastIndexOf(m, ']').value;
      m[..i] + "_" + m[i + 1..j] + "_guard"
    case None =>
      match LastIndexOf(m, '.')
      case Some(i) => m[..i] + "_" + m[i + 1..] + "_guard"
      case None =>
        match LastArrow(m)
        case Some(i) => m[..i] + "_" + m[i + 2..] + "_guard"
        case None => m + "_guard"
  }

  /** An indexed mutex `a[i]` gets the guard `a_i_guard`, whatever `a` contains. */
  lemma GuardOfIndex(a: string, i: string)
    requires '[' !in i && ']' !in i
    ensures Guardable(a + "[" + i + "]")
    ensures GuardOf(a + "[" + i + "]") == a + "_" + i + "_guard"
  {
    var m := a + "[" + i + "]";
    assert m[|a|] == '[' && m[|m| - 1] == ']';
    assert m[|a| + 1..] == i + "]";
    assert m[|m|..] == [];
    assert forall k :: |a| < k < |m| ==> m[k] != '[';
    var li := LastIndexOf(m, '[');
    assert m[..|a|] == a;
    assert m[|a| + 1..|m| - 1] == i;
  }

  /** A field mutex `s.f` gets the guard `s_f_guard` when neither part has a `[` and
      the field has no `.`. */
  lemma GuardOfField(s: string, f: string)
    requires '[' !in s && '[' !in f && '.' !in f
    ensures Guardable(s + "." + f)
    ensures GuardOf(s + "." + f) == s + "_" + f + "_guard"
  {
    var m := s + "." + f;
    assert forall k :: 0 <= k < |m| ==> m[k] == (if k < |s| then s[k] else if k == |s| then '.' else f[k - |s| - 1]);
    assert '[' !in m;
    assert m[|s|] == '.';
    var li := LastIndexOf(m, '.');
    assert m[..|s|] == s && m[|s| + 1..] == f;
  }

  /** A mutex reached through a pointer, `p->f`, gets the guard `p_f_guard` when no part
      has a `[` or a `.` and the field has no `->` of its own. */
  lemma GuardOfArrow(p: string, f: string)
    requires '[' !in p && '[' !in f && '.' !in p && '.' !in f && forall i :: !ArrowAt(f, i)
    ensures Guardable(p + "->" + f)
    ensures GuardOf(p + "->" + f) == p + "_" + f + "_guard"
  {
    var m := p + "->" + f;
    assert forall k :: 0 <= k < |m| ==> m[k] == (if k < |p| then p[k] else if k == |p| then '-' else if k == |p| + 1 then '>' else f[k - |p| - 2]);
    assert '[' !in m && '.' !in m;
    assert ArrowAt(m, |p|);
    assert m[|p| + 1] == '>';
    forall k | |p| + 2 <= k < |m| - 1 ensures !ArrowAt(m, k) {
      assert !ArrowAt(f, k - |p| - 2);
      assert m[k] == f[k - |p| - 2] && m[k + 1] == f[k - |p| - 1];
    }
    assert m[..|p|] == p && m[|p| + 2..] == f;
  }

  /** An indexed element of an array of mutexes. */
  lemma GuardOfIndexExample()
    ensures GuardOf("a[i]") == "a_i_guard"
  {
    assert "a[i]" == "a" + "[" + "i" + "]";
    GuardOfIndex("a", "i");
  }

  /** A mutex field of a struct variable. */
  lemma GuardOfFieldExample()
    ensures GuardOf("s.m") == "s_m_guard"
  {
    assert "s.m" == "s" + "." + "m";
    GuardOfField("s", "m");
  }

  /** A mutex field reached through a pointer. */
  lemma GuardOfArrowExample()
    ensures GuardOf("p->m") == "p_m_guard"
  {
    assert "p->m" == "p" + "->" + "m";
    GuardOfArrow("p", "m");
  }

  /** The last `.` is tried before any `->`, so an arrow after a dot stays in the name. */
  lemma GuardOfDotBeforeArrow(a: string, b: string, c: string)
    requires '[' !in a && '[' !in b && '[' !in c && '.' !in b && '.' !in c
    ensures GuardOf(a + "." + b + "->" + c) == a + "_" + b + "->" + c + "_guard"
  {
    assert a + "." + b + "->" + c == a + "." + (b + "->" + c);
    GuardOfField(a, b + "->" + c);
  }

  /** The data struct generated for a global protected by mutex `m`. */
  function StructOf(m: string): (r: string)
    ensures |r| == |m| + 13
    ensures r[..|m|] == m && r[|m|..] == "ProtectedData"
  {
    m + "ProtectedData"
  }

  /** The data struct generated for the fields of struct `s` protected by its mutex
      field `m`. */
  function StructOf2(s: string, m: string): (r: string)
    ensures |r| == |m| + 9 + |s|
    ensures r[..|m|] == m && r[|m|..|m| + 9] == "Protected" && r[|m| + 9..] == s
  {
    m + "Protected" + s
  }

  /** Distinct mutexes get distinct data struct names. */
  lemma StructOfInjective(a: string, b: string)
    requires StructOf(a) == StructOf(b)
    ensures a == b
  {
    assert |a| == |b|;
    assert a == StructOf(a)[..|a|];
  }

  /** For one mutex field, distinct structs get distinct names, and for one struct,
      distinct mutex fields get distinct names. */
  lemma StructOf2Injective(s: string, m: string, s': string, m': string)
    requires StructOf2(s, m) == StructOf2(s', m')
    ensures m == m' ==> s == s'
    ensures s == s' ==> m == m'
  {
    if m == m' {
      assert s == StructOf2(s, m)[|m| + 9..];
    }
    if s == s' {
      assert |m| == |m'|;
      assert m == StructOf2(s, m)[..|m|];
    }
  }

  /** The total length of the strings of `v`. */
  function TotalLength(v: seq<string>): nat {
    if |v| == 0 then 0 else |v[0]| + TotalLength(v[1..])
  }

  /** The strings of `v` separated by `sep` (`intersperse` then `collect`). */
  function Join(v: seq<string>, sep: string): (r: string)
    ensures |v| == 0 ==> r == ""
    ensures |v| == 1 ==> r == v[0]
    ensures |v| > 0 ==> |r| == TotalLength(v) + (|v| - 1) * |sep|
  {
    if |v| == 0 then ""
    else if |v| == 1 then v[0]
    else v[0] + sep + Join(v[1..], sep)
  }

  /** Joining one more string adds the separator and that string at the end. */
  lemma {:induction false} JoinSnoc(v: seq<string>, x: string, sep: string)
    requires |v| > 0
    ensures Join(v + [x], sep) == Join(v, sep) + sep + x
    decreases |v|
  {
    if |v| == 1 {
      assert (v + [x])[1..] == [x];
    } else {
      assert (v + [x])[1..] == v[1..] + [x];
      JoinSnoc(v[1..], x, sep);
    }
  }

  /** The pieces of `s` between the occurrences of `c`. */
  function Split(s: string, c: char): (r: seq<string>)
    ensures |r| > 0
    decreases |s|
  {
    match FirstIndexOf(s, c)
    case None => [s]
    case Some(i) => [s[..i]] + Split(s[i + 1..], c)
  }

  /** The position of the first occurrence of `c` in `s`. */
  function FirstIndexOf(s: string, c: char): (r: Option<nat>)
    ensures r.None? <==> c !in s
    ensures r.Some? ==> r.value < |s| && s[r.value] == c
    ensures r.Some? ==> forall k :: 0 <= k < r.value ==> s[k] != c
  {
    if |s| == 0 then None
    else if s[0] == c then Some(0)
    else
      var r := FirstIndexOf(s[1..], c);
      assert s == [s[0]] + s[1..];
      if r.None? then None else Some(r.value + 1)
  }

  /** Joining with a one-character separator that occurs in no element can be undone by
      splitting at that character: the joined list is unambiguous. */
  lemma {:induction false} SplitJoin(v: seq<string>, c: char)
    requires |v| > 0
    requires forall k :: 0 <= k < |v| ==> c !in v[k]
    ensures Split(Join(v, [c]), c) == v
    decreases |v|
  {
    if |v| == 1 {
      assert FirstIndexOf(v[0], c).None?;
    } else {
      assert forall k :: 0 <= k < |v| - 1 ==> v[1..][k] == v[k + 1];
      SplitJoin(v[1..], c);
      SplitJoinStep(v, c);
    }
  }

  /** The step of `SplitJoin`: the first element is split off at the first separator. */
  lemma SplitJoinStep(v: seq<string>, c: char)
    requires |v| > 1 && c !in v[0]
    requires Split(Join(v[1..], [c]), c) == v[1..]
    ensures Split(Join(v, [c]), c) == v
  {
    var rest := Join(v[1..], [c]);
    assert Join(v, [c]) == v[0] + [c] + rest;
    SplitAtFirst(v[0], c, rest);
    assert [v[0]] + v[1..] == v;
  }

  /** Splitting `x c rest`, where `x` has no `c`, yields `x` and then the pieces of `rest`. */
  lemma SplitAtFirst(x: string, c: char, rest: string)
    requires c !in x
    ensures Split(x + [c] + rest, c) == [x] + Split(rest, c)
  {
    var s := x + [c] + rest;
    assert s[|x|] == c;
    assert s[..|x|] == x;
    assert s[|x| + 1..] == rest;
    assert forall k :: 0 <= k < |x| ==> s[k] == x[k];
  }

  /** A tuple expression or type: the single element itself, or the elements joined by
      `, ` in parentheses. The list must not be empty (the source asserts it). */
  function MakeTuple(v: seq<string>): (r: string)
    requires |v| > 0
    ensures |v| == 1 ==> r == v[0]
    ensures |v| > 1 ==> r == "(" + Join(v, ", ") + ")"
    ensures |v| > 1 ==> |r| == TotalLength(v) + 2 * (|v| - 1) + 2
  {
    if |v| == 1 then v[0] else "(" + Join(v, ", ") + ")"
  }
}

=== FILE: scenarios.dfy ===
/** The model applied to a small C program: `main` spawns two threads running `t_fun`;
    `t_fun` calls `f1`; `f1` locks `num_mutex` around a call to `inc`; `inc` reads and
    writes the global `n1`. Function ids: `main` 0, `t_fun` 1, `f1` 2, `inc` 3; the
    library functions `pthread_create` 4, `pthread_join` 5, `pthread_mutex_lock` 6 and
    `pthread_mutex_unlock` 7. The only mutex, `num_mutex`, has id 0. */
module Scenarios {
  import opened Wrappers
  import opened ExprPaths
  import opened CallGraph
  import opened Fixpoint
  import opened Summaries
  import opened Classify
  import PossibleMutexes

  /** The functions of the program. */
  function ThreadProgramFunctions(): set<nat> {
    {0, 1, 2, 3}
  }

  /** The user-defined callees of each function once the library calls
      (`pthread_create`, `pthread_join`, the lock calls) are removed. */
  function Callees(f: nat): set<nat> {
    if f == 1 then {2} else if f == 2 then {3} else {}
  }

  function ThreadProgramCalls(): Graph {
    map f | f in ThreadProgramFunctions() :: Callees(f)
  }

  /** The ids held across each user call: nothing from `t_fun` to `f1`, `num_mutex`
      from `f1` to `inc`. */
  function HeldAcross(f: nat): map<nat, set<nat>> {
    if f == 1 then map[2 := {}] else if f == 2 then map[3 := {0}] else map[]
  }

  function ThreadProgramPropagation(): Propagation {
    map f | f in ThreadProgramFunctions() :: HeldAcross(f)
  }

  /** No function is entered with a lock held. */
  function NoEntryLocks(): States {
    map f | f in ThreadProgramFunctions() :: {}
  }

  /** `inc` holds `num_mutex` only because its caller does. */
  function IncInheritsLock(): States {
    map f | f in ThreadProgramFunctions() :: if f == 3 then {0} else {}
  }

  /** The call edges are `t_fun -> f1` and `f1 -> inc`. */
  lemma ThreadProgramEdges()
    ensures forall f, g :: f in ThreadProgramCalls() && g in ThreadProgramCalls()[f] <==>
              (f == 1 && g == 2) || (f == 2 && g == 3)
  {
  }

  /** The inputs meet what the fixpoint needs: the graph is closed, every function has
      an entry set, every edge has a propagated set, and the order lists each function
      once. */
  lemma ThreadProgramInputs()
    ensures Closed(ThreadProgramCalls())
    ensures ThreadProgramCalls().Keys <= NoEntryLocks().Keys
    ensures EdgesCovered(ThreadProgramCalls(), ThreadProgramPropagation())
    ensures ListsEachOnce([0, 1, 2, 3], ThreadProgramCalls().Keys)
  {
    ThreadProgramEdges();
  }

  /** The call terminators of each function, library calls included, with the ids held
      just before each: `f1` holds nothing before the lock call and `num_mutex` before
      the calls of `inc` and of the unlock. Library calls propagate nothing. */
  function CallsOf(f: nat): seq<CallSite> {
    if f == 0 then [CallSite(4, {}, {}), CallSite(4, {}, {}), CallSite(5, {}, {}), CallSite(5, {}, {})]
    else if f == 1 then [CallSite(2, {}, {})]
    else if f == 2 then [CallSite(6, {}, {}), CallSite(3, {0}, {0}), CallSite(7, {0}, {0})]
    else []
  }

  /** Every callee of each function's call terminators, library functions included. */
  function RawCalls(): Graph {
    map f | f in ThreadProgramFunctions() :: set i | 0 <= i < |CallsOf(f)| :: CallsOf(f)[i].callee
  }

  /** Dropping the library callees from the call terminators leaves the user call graph:
      `t_fun` calls `f1` and `f1` calls `inc`. */
  lemma ThreadProgramCallGraph()
    ensures CallGraph.RemoveLibraryCallees(RawCalls()) == ThreadProgramCalls()
  {
    var raw := RawCalls();
    assert raw[0] == {4, 5} by {
      assert CallsOf(0)[0].callee == 4 && CallsOf(0)[2].callee == 5;
    }
    assert raw[1] == {2} by {
      assert CallsOf(1)[0].callee == 2;
    }
    assert raw[2] == {6, 3, 7} by {
      assert CallsOf(2)[0].callee == 6 && CallsOf(2)[1].callee == 3 && CallsOf(2)[2].callee == 7;
    }
    assert raw[3] == {};
    var r := CallGraph.RemoveLibraryCallees(raw);
    assert r.Keys == ThreadProgramCalls().Keys;
    forall f | f in r ensures r[f] == ThreadProgramCalls()[f] {
      assert r[f] == raw[f] * {0, 1, 2, 3};
    }
  }

  /** The lock expressions of each function: `f1` locks `num_mutex`. */
  function LocksOf(): map<nat, set<ExprPath>> {
    map f | f in ThreadProgramFunctions() :: if f == 2 then {NumMutex()} else {}
  }

  /** The parameters of each function: `t_fun` takes `void *arg`. The argument-type map
      passed with them is empty. Neither matters here: `num_mutex` is a plain variable,
      so no lock expression is re-based onto an argument. */
  function ParamsOf(): map<nat, PossibleMutexes.Params> {
    map f | f in ThreadProgramFunctions() :: if f == 1 then [("arg", "*mut libc::c_void")] else []
  }

  /** `num_mutex` is the only possible mutex. It is a variable, so nothing is re-based,
      and its id is 0 whatever the numbering. */
  lemma ThreadProgramMutexes()
    ensures PossibleMutexes.PossibleMutexes(LocksOf(), ParamsOf(), map[]) == {NumMutex()}
  {
    var r := PossibleMutexes.PossibleMutexes(LocksOf(), ParamsOf(), map[]);
    assert PossibleMutexes.LockedSomewhere(LocksOf(), NumMutex()) by {
      assert NumMutex() in LocksOf()[2];
    }
    forall x ensures !PossibleMutexes.RebasedSomewhere(LocksOf(), ParamsOf(), map[], x) {
      forall f, m | f in LocksOf() && m in LocksOf()[f] ensures IsVariable(m) {
        assert m == NumMutex();
      }
    }
  }

  /** The one candidate gets id 0, whatever the iteration order. */
  lemma ThreadProgramNumbering(inv: map<nat, ExprPath>)
    requires PossibleMutexes.Numbering(PossibleMutexes.PossibleMutexes(LocksOf(), ParamsOf(), map[]), inv)
    ensures inv == map[0 := NumMutex()]
  {
    ThreadProgramMutexes();
    assert |{NumMutex()}| == 1;
    assert inv.Keys == {0} by {
      forall i | i in inv ensures i == 0 { }
      assert 0 in inv;
    }
    assert inv[0] in {NumMutex()};
  }

  /** The locks held somewhere in each function: `num_mutex` in `f1`, nothing elsewhere
      (every function is entered and left with nothing held). */
  lemma ThreadProgramNodes()
    ensures NodeMutex({}, {}, CallsOf(2)) == {0}
    ensures forall f :: f in {0, 1, 3} ==> NodeMutex({}, {}, CallsOf(f)) == {}
  {
    var c := CallsOf(2);
    var r := NodeMutex({}, {}, c);
    assert c[1].held == {0};
    forall x | x in r ensures x == 0 {
      assert HeldAtSomeCall(c, x);
    }
    forall f | f in {0, 1, 3} ensures NodeMutex({}, {}, CallsOf(f)) == {} {
      var c := CallsOf(f);
      assert forall i :: 0 <= i < |c| ==> c[i].held == {};
      assert forall x :: !HeldAtSomeCall(c, x);
    }
  }

  /** `main` calls only library functions. */
  lemma MainPropagation()
    ensures CallPropagation(CallsOf(0), ThreadProgramFunctions()) == []
  {
    var fns, m := ThreadProgramFunctions(), CallsOf(0);
    assert m[1..][1..][1..][1..] == [];
    assert CallPropagation([], fns) == [];
    CallPropagationFront(m[1..][1..][1..], fns);
    CallPropagationFront(m[1..][1..], fns);
    CallPropagationFront(m[1..], fns);
    CallPropagationFront(m, fns);
  }

  /** `t_fun` calls `f1` with nothing held. */
  lemma TFunPropagation()
    ensures CallPropagation(CallsOf(1), ThreadProgramFunctions()) == [(2, {})]
  {
    var fns, t := ThreadProgramFunctions(), CallsOf(1);
    assert t[1..] == [];
    assert CallPropagation([], fns) == [];
    CallPropagationFront(t, fns);
  }

  /** `f1` calls `inc` with `num_mutex` held; the lock calls are skipped. */
  lemma F1Propagation()
    ensures CallPropagation(CallsOf(2), ThreadProgramFunctions()) == [(3, {0})]
  {
    var fns, c := ThreadProgramFunctions(), CallsOf(2);
    assert c[1..][1..][1..] == [];
    assert CallPropagation([], fns) == [];
    CallPropagationFront(c[1..][1..], fns);
    CallPropagationFront(c[1..], fns);
    CallPropagationFront(c, fns);
  }

  /** The propagation lists built from the calls: `t_fun` passes nothing to `f1`, `f1`
      passes `num_mutex` to `inc`, and library calls are skipped. */
  lemma ThreadProgramCallPropagation()
    ensures CallPropagation(CallsOf(0), ThreadProgramFunctions()) == []
    ensures CallPropagation(CallsOf(1), ThreadProgramFunctions()) == [(2, {})]
    ensures CallPropagation(CallsOf(2), ThreadProgramFunctions()) == [(3, {0})]
    ensures CallPropagation(CallsOf(3), ThreadProgramFunctions()) == []
  {
    MainPropagation();
    TFunPropagation();
    F1Propagation();
  }

  /** Each entry of a function's propagation list is the set `HeldAcross` gives for its
      callee. */
  lemma ThreadProgramHeldAcross()
    ensures forall f, i :: f in ThreadProgramFunctions() && 0 <= i < |CallPropagation(CallsOf(f), ThreadProgramFunctions())| ==>
              var e := CallPropagation(CallsOf(f), ThreadProgramFunctions())[i];
              e.0 in HeldAcross(f) && HeldAcross(f)[e.0] == e.1
  {
    ThreadProgramCallPropagation();
  }

  function N1(): ExprPath { ExprPath("n1", []) }

  function NumMutex(): ExprPath { ExprPath("num_mutex", []) }

  /** The access entries of each function, one per global path. `f1` reads the global
      `num_mutex` as the argument of the lock call (nothing held) and of the unlock call
      (`num_mutex` held); its entry is a read with the held set of the first. `inc`
      reads and writes `n1` at several statements, all with nothing held locally; its
      entry is a write with nothing held. */
  function AccessesOf(f: nat): seq<AccessSite> {
    if f == 2 then [AccessSite(NumMutex(), {}, false)]
    else if f == 3 then [AccessSite(N1(), {}, true)]
    else []
  }

  /** The summaries after the fixpoint: each function's node set comes from its calls,
      and each function inherits `propagated[f]` from its callers. */
  function ThreadProgramSummaries(propagated: States): (r: map<nat, FunctionSummary>)
    requires propagated.Keys == {0, 1, 2, 3}
    ensures r.Keys == {0, 1, 2, 3}
  {
    map f | f in propagated ::
      FunctionSummary({}, NodeMutex({}, {}, CallsOf(f)), {}, ThreadProgramPropagation()[f],
                      AccessesOf(f), propagated[f])
  }

  /** Summaries with the program's access entries and with `num_mutex` propagated to
      `inc` only. */
  ghost predicate ProgramSummaries(summaries: map<nat, FunctionSummary>) {
    && summaries.Keys == {0, 1, 2, 3}
    && (forall f :: f in summaries ==> summaries[f].access == AccessesOf(f))
    && (forall f :: f in summaries ==> summaries[f].propagationMutex == if f == 3 then {0} else {})
  }

  /** The summaries built after the fixpoint have that shape. */
  lemma ThreadProgramSummariesShape()
    ensures ProgramSummaries(ThreadProgramSummaries(IncInheritsLock()))
  {
  }

  /** `main` and `t_fun` are the roots: nothing calls them. */
  lemma ThreadProgramRoots()
    ensures Roots(ThreadProgramCalls()) == {0, 1}
  {
    var cg := ThreadProgramCalls();
    assert 2 in cg[1] && 3 in cg[2];
  }

  /** The roots start from their (empty) entry sets; `f1` and `inc` start from the full
      set `{num_mutex}`. */
  lemma ThreadProgramInitial()
    ensures var init := Initial(ThreadProgramCalls(), NoEntryLocks(), 1);
            && init.Keys == {0, 1, 2, 3}
            && init[0] == {} && init[1] == {} && init[2] == {0} && init[3] == {0}
  {
    ThreadProgramRoots();
    assert Full(1) == {0};
  }

  /** A state assignment with the expected value for every function is the expected
      assignment. */
  lemma SameAsExpected(a: States)
    requires a.Keys == ThreadProgramCalls().Keys
    requires a[0] == {} && a[1] == {} && a[2] == {} && a[3] == {0}
    ensures a == IncInheritsLock()
  {
    assert a.Keys == {0, 1, 2, 3};
  }

  /** The expected states are below the starting states. */
  lemma ExpectedIsBelow()
    ensures Below(IncInheritsLock(), Initial(ThreadProgramCalls(), NoEntryLocks(), 1))
  {
    ThreadProgramInitial();
  }

  /** No call edge narrows the expected states: `f1` holds nothing, and `inc` holds only
      what `f1` holds across the call. */
  lemma ExpectedIsStable()
    ensures Stable(ThreadProgramCalls(), ThreadProgramPropagation(), IncInheritsLock())
  {
    var cg, prop, e := ThreadProgramCalls(), ThreadProgramPropagation(), IncInheritsLock();
    forall f, g | f in cg && g in cg[f] && f in prop && g in prop[f] && f in e && g in e
      ensures e[g] <= prop[f][g] + e[f]
    {
      ThreadProgramEdges();
      if f == 2 {
        assert prop[2] == map[3 := {0}];
      }
    }
  }

  /** `main` and `t_fun` keep their empty entry sets. */
  lemma RootsKeepNothing(abs: States)
    requires abs.Keys == ThreadProgramCalls().Keys
    requires forall f :: f in Roots(ThreadProgramCalls()) ==> abs[f] == NoEntryLocks()[f]
    ensures abs[0] == {} && abs[1] == {}
  {
    ThreadProgramRoots();
    assert NoEntryLocks()[0] == {} && NoEntryLocks()[1] == {};
  }

  /** `t_fun` holds nothing when it calls `f1`, so `f1` holds nothing. */
  lemma F1Narrowed(abs: States)
    requires abs.Keys == ThreadProgramCalls().Keys
    requires Stable(ThreadProgramCalls(), ThreadProgramPropagation(), abs)
    requires abs[1] == {}
    ensures abs[2] == {}
  {
    var cg, prop := ThreadProgramCalls(), ThreadProgramPropagation();
    assert 2 in cg[1];
    assert prop[1][2] == {};
    assert abs[2] <= prop[1][2] + abs[1];
  }

  /** `inc` starts from `{num_mutex}`, and the expected states, which keep it, are below
      the greatest stable assignment. */
  lemma IncKeepsLock(abs: States)
    requires Below(abs, Initial(ThreadProgramCalls(), NoEntryLocks(), 1))
    requires forall x: States ::
               (Below(x, Initial(ThreadProgramCalls(), NoEntryLocks(), 1)) &&
                Stable(ThreadProgramCalls(), ThreadProgramPropagation(), x)) ==> Below(x, abs)
    ensures abs[3] == {0}
  {
    ThreadProgramInitial();
    ExpectedIsBelow();
    ExpectedIsStable();
    assert abs[3] <= {0};
    assert IncInheritsLock()[3] <= abs[3];
  }

  /** The fixpoint leaves `main`, `t_fun` and `f1` with nothing held and `inc` with
      `num_mutex` held on entry: the greatest stable assignment below the starting
      states is the expected one. */
  method ThreadProgramStates() returns (abs: States)
    ensures abs == IncInheritsLock()
  {
    ThreadProgramInputs();
    abs := Solve(ThreadProgramCalls(), [0, 1, 2, 3], NoEntryLocks(), ThreadProgramPropagation(), 1);
    RootsKeepNothing(abs);
    F1Narrowed(abs);
    IncKeepsLock(abs);
    SameAsExpected(abs);
  }

  /** Removing the (empty) entry sets leaves the states as they are. */
  lemma ThreadProgramPropagated()
    ensures PropagationMutexes(IncInheritsLock(), NoEntryLocks()) == Success(IncInheritsLock())
  {
    var abs, entry := IncInheritsLock(), NoEntryLocks();
    assert forall f :: f in abs ==> entry[f] == {};
    var r := PropagationMutexes(abs, entry);
    assert r.Success?;
    var v := r.value;
    forall f | f in v ensures v[f] == abs[f] {
      assert v[f] + entry[f] == abs[f];
      assert v[f] + {} == v[f];
    }
    assert v == abs;
  }

  /** The functions that may run in a spawned thread are `t_fun`, `f1` and `inc`. */
  method ThreadProgramThreads() returns (threadFns: set<nat>)
    ensures threadFns == {1, 2, 3}
  {
    var cg := ThreadProgramCalls();
    threadFns := ThreadFunctions(cg, {1});
    assert Reachable(cg, {1}, 3) by {
      assert IsPath(cg, [1, 2, 3]);
    }
    assert Reachable(cg, {1}, 2) by {
      assert IsPath(cg, [1, 2]);
    }
    SourceReachable(cg, {1}, 1);
    ClosedHoldsAllReachable(cg, {1}, {1, 2, 3});
  }

  /** The read of `num_mutex` by `f1`, with nothing held locally. */
  function F1Read(): (nat, AccessSite) {
    (2, AccessSite(NumMutex(), {}, false))
  }

  /** The write of `n1` by `inc`, with nothing held locally. */
  function IncWrite(): (nat, AccessSite) {
    (3, AccessSite(N1(), {}, true))
  }

  /** The global paths of the program, in the order they are visited. */
  function Globals(): seq<ExprPath> {
    [N1(), NumMutex()]
  }

  /** The access sites are the read of `num_mutex` by `f1` and the write of `n1` by
      `inc`, in function order. */
  lemma ThreadProgramSites(summaries: map<nat, FunctionSummary>)
    requires ProgramSummaries(summaries)
    ensures Sites([0, 1, 2, 3], summaries) == [F1Read(), IncWrite()]
  {
    assert summaries[0].access == [] && summaries[1].access == [];
    assert summaries[2].access == [F1Read().1];
    assert summaries[3].access == [IncWrite().1];
    assert Sites([], summaries) == [];
    assert Sites([3], summaries) == [IncWrite()];
    assert Sites([2, 3], summaries) == [F1Read(), IncWrite()];
    assert [0, 1, 2, 3][1..] == [1, 2, 3] && [1, 2, 3][1..] == [2, 3] && [2, 3][1..] == [3];
  }

  /** The write of `n1` is recorded with the inherited `num_mutex` and is the only access
      to `n1`; the read of `num_mutex` is recorded with nothing held and is the only
      access to `num_mutex`. */
  lemma ThreadProgramAccesses(summaries: map<nat, FunctionSummary>)
    requires ProgramSummaries(summaries)
    ensures var global := Group([F1Read(), IncWrite()], summaries, {}).0;
            && N1() in global
            && Access(3, {0}, true) in global[N1()]
            && (forall a :: a in global[N1()] ==> a == Access(3, {0}, true))
            && NumMutex() in global
            && Access(2, {}, false) in global[NumMutex()]
            && (forall a :: a in global[NumMutex()] ==> a == Access(2, {}, false))
  {
    var sites := [F1Read(), IncWrite()];
    var global := Group(sites, summaries, {}).0;
    assert Record(IncWrite(), summaries) == Access(3, {0}, true);
    assert Record(F1Read(), summaries) == Access(2, {}, false);
    assert sites[0].1.path == NumMutex() && sites[1].1.path == N1();
    assert N1() != NumMutex();
    forall a | a in global[N1()] ensures a == Access(3, {0}, true) {
      assert GlobalFromSite(sites, summaries, N1(), a);
    }
    forall a | a in global[NumMutex()] ensures a == Access(2, {}, false) {
      assert GlobalFromSite(sites, summaries, NumMutex(), a);
    }
  }

  /** With those accesses, `n1` gets a plain mutex, `num_mutex`. */
  lemma ThreadProgramVerdict(accs: seq<Access>)
    requires Access(3, {0}, true) in accs
    requires forall a :: a in accs ==> a == Access(3, {0}, true)
    ensures Decide(N1(), accs, {1, 2, 3}, map[0 := NumMutex()]) == Plain(0)
  {
    var inv := map[0 := NumMutex()];
    DecideFindsGuard(N1(), accs, {1, 2, 3}, inv, 0);
  }

  /** `num_mutex` itself is only read, so it gets no mutex. */
  lemma ThreadProgramReadOnly(accs: seq<Access>)
    requires Access(2, {}, false) in accs
    requires forall a :: a in accs ==> a == Access(2, {}, false)
    ensures Decide(NumMutex(), accs, {1, 2, 3}, map[0 := NumMutex()]) == Skip(ReadOnly)
  {
    var kept := Retained(accs, {1, 2, 3});
    assert Access(2, {}, false) in kept;
  }

  /** Grouping the access sites: every held set uses the one mutex id, `n1` gets a plain
      mutex and `num_mutex` is skipped as read-only. */
  lemma ThreadProgramGlobal(summaries: map<nat, FunctionSummary>, global: map<ExprPath, seq<Access>>)
    requires ProgramSummaries(summaries)
    requires global == Group([F1Read(), IncWrite()], summaries, {}).0
    ensures N1() in global && NumMutex() in global
    ensures forall p, a :: p in global && a in global[p] ==> a.held <= {0}
    ensures Decide(N1(), global[N1()], {1, 2, 3}, map[0 := NumMutex()]) == Plain(0)
    ensures Decide(NumMutex(), global[NumMutex()], {1, 2, 3}, map[0 := NumMutex()]) == Skip(ReadOnly)
  {
    var sites := [F1Read(), IncWrite()];
    ThreadProgramAccesses(summaries);
    assert Record(IncWrite(), summaries) == Access(3, {0}, true);
    assert Record(F1Read(), summaries) == Access(2, {}, false);
    forall p, a | p in global && a in global[p] ensures a.held <= {0} {
      assert GlobalFromSite(sites, summaries, p, a);
    }
    ThreadProgramVerdict(global[N1()]);
    ThreadProgramReadOnly(global[NumMutex()]);
  }

  /** A plain verdict for `n1` and a skip for `num_mutex` fill `mutex_map` with `n1` only
      and leave `array_mutex_map` empty. */
  lemma ThreadProgramMaps(verdicts: seq<Verdict>)
    requires verdicts == [Plain(0), Skip(ReadOnly)]
    ensures BuildMap(Globals(), verdicts, map[0 := NumMutex()], false) == map["n1" := "num_mutex"]
    ensures BuildMap(Globals(), verdicts, map[0 := NumMutex()], true) == map[]
  {
    var inv := map[0 := NumMutex()];
    var plain := BuildMap(Globals(), verdicts, inv, false);
    assert Selects(verdicts[0], false);
    assert "n1" in plain;
    forall k | k in plain ensures k == "n1" && plain[k] == "num_mutex" {
      var i :| LastWriter(Globals(), verdicts, inv, false, i, k, plain[k]);
      assert i == 0;
    }
    assert forall i: nat, k, v :: !LastWriter(Globals(), verdicts, inv, true, i, k, v);
  }

  /** The locks each function inherits from its callers: `num_mutex` for `inc` only. */
  method ThreadProgramLocks() returns (propagated: States)
    ensures propagated == IncInheritsLock()
  {
    var abs := ThreadProgramStates();
    var pm := PropagationMutexes(abs, NoEntryLocks());
    ThreadProgramPropagated();
    propagated := pm.value;
  }

  /** The summaries after propagation, and the access sites they list. */
  method ThreadProgramSiteList() returns (summaries: map<nat, FunctionSummary>, sites: seq<(nat, AccessSite)>)
    ensures summaries == ThreadProgramSummaries(IncInheritsLock())
    ensures ProgramSummaries(summaries)
    ensures sites == [F1Read(), IncWrite()]
  {
    var propagated := ThreadProgramLocks();
    summaries := ThreadProgramSummaries(propagated);
    sites := Sites([0, 1, 2, 3], summaries);
    ThreadProgramSummariesShape();
    ThreadProgramSites(summaries);
  }

  /** The pass up to grouping: the accesses of every global, recorded from the access
      sites with the propagated locks of their functions. */
  method ThreadProgramGrouped() returns (summaries: map<nat, FunctionSummary>, global: map<ExprPath, seq<Access>>)
    ensures ProgramSummaries(summaries)
    ensures global == Group([F1Read(), IncWrite()], summaries, {}).0
  {
    var sites;
    summaries, sites := ThreadProgramSiteList();
    global := Group(sites, summaries, {}).0;
  }

  /** The verdicts for the global paths: a plain mutex, `num_mutex`, for `n1`, and a
      read-only skip for `num_mutex`. */
  method ThreadProgramVerdicts() returns (verdicts: seq<Verdict>)
    ensures verdicts == [Plain(0), Skip(ReadOnly)]
  {
    var threadFns := ThreadProgramThreads();
    var summaries, global := ThreadProgramGrouped();
    ThreadProgramGlobal(summaries, global);
    verdicts := Verdicts(Globals(), global, threadFns, map[0 := NumMutex()]);
  }

  /** The pass assigns `num_mutex` to `n1`: `inc` runs only in threads spawned with
      `t_fun`, every call path to it holds `num_mutex`, and it writes `n1`. The global
      `num_mutex` is only read and gets no mutex. No array global is found. */
  method ThreadProgram() returns (mutexMap: map<string, string>, arrayMap: map<string, string>)
    ensures mutexMap == map["n1" := "num_mutex"]
    ensures arrayMap == map[]
  {
    var verdicts := ThreadProgramVerdicts();
    var inv := map[0 := NumMutex()];
    mutexMap := BuildMap(Globals(), verdicts, inv, false);
    arrayMap := BuildMap(Globals(), verdicts, inv, true);
    ThreadProgramMaps(verdicts);
  }
}

=== FILE: struct_group.dfy ===
/** Grouping of struct field accesses: an access path is shortened, one field at a time
    from the end, until the remaining prefix has a struct type that declares a mutex;
    the access is then filed under (that struct type, the field just removed). */
module StructGroup {
  import opened Wrappers
  import opened ExprPaths
  import opened Classify

  /** Where a struct field access is filed: under a struct type and field, nowhere (a
      non-field projection or the base was reached first), or a failure because a
      prefix has no recorded type (the source unwraps the type lookup). */
  datatype Grouping = Grouped(typ: string, prefix: ExprPath, field: string) | Ungrouped | MissingType

  /** The first `k` projections of `path`. */
  function Prefix(path: ExprPath, k: nat): ExprPath
    requires k <= |path.projections|
  {
    ExprPath(path.base, path.projections[..k])
  }

  /** Every projection from position `k` on is a field. */
  predicate FieldsFrom(path: ExprPath, k: nat) {
    forall j :: k <= j < |path.projections| ==> path.projections[j].Field?
  }

  /** Every prefix strictly longer than `k` (and shorter than the path) has a recorded
      type, and that type declares no mutex. */
  predicate PassedOver(path: ExprPath, f: nat, pathTypes: map<(nat, ExprPath), string>, withMutex: set<string>, k: nat) {
    forall j :: k < j < |path.projections| ==>
      (f, Prefix(path, j)) in pathTypes && pathTypes[(f, Prefix(path, j))] !in withMutex
  }

  /** `r` is a correct answer for `path`: a grouping names the longest proper prefix
      reached through fields only whose type declares a mutex, `Ungrouped` means every
      such prefix has a type without mutex, and `MissingType` names a prefix without a
      recorded type reached before any prefix with a mutex. */
  ghost predicate Explains(path: ExprPath, f: nat, pathTypes: map<(nat, ExprPath), string>, withMutex: set<string>,
                           r: Grouping) {
    && (r.Grouped? ==>
          var k := |r.prefix.projections|;
          && k < |path.projections| && r.prefix == Prefix(path, k)
          && FieldsFrom(path, k) && path.projections[k] == Field(r.field)
          && (f, r.prefix) in pathTypes && pathTypes[(f, r.prefix)] == r.typ && r.typ in withMutex
          && PassedOver(path, f, pathTypes, withMutex, k))
    && (r.Ungrouped? ==>
          forall k :: 0 <= k < |path.projections| && FieldsFrom(path, k) ==>
            (f, Prefix(path, k)) in pathTypes && pathTypes[(f, Prefix(path, k))] !in withMutex)
    && (r.MissingType? ==>
          exists k :: 0 <= k < |path.projections| && FieldsFrom(path, k) &&
                      (f, Prefix(path, k)) !in pathTypes && PassedOver(path, f, pathTypes, withMutex, k))
  }

  /** Dropping the last field: an answer for the shorter path whose type has no mutex
      is an answer for the whole path. */
  lemma ExplainsAfterField(path: ExprPath, f: nat, pathTypes: map<(nat, ExprPath), string>, withMutex: set<string>,
                           r: Grouping)
    requires |path.projections| > 0 && path.projections[|path.projections| - 1].Field?
    requires var prefix := Prefix(path, |path.projections| - 1);
             (f, prefix) in pathTypes && pathTypes[(f, prefix)] !in withMutex
    requires Explains(Prefix(path, |path.projections| - 1), f, pathTypes, withMutex, r)
    ensures Explains(path, f, pathTypes, withMutex, r)
  {
    var n := |path.projections| - 1;
    var prefix := Prefix(path, n);
    assert forall j :: 0 <= j <= n ==> Prefix(prefix, j) == Prefix(path, j);
    assert forall k :: 0 <= k <= n && FieldsFrom(prefix, k) ==> FieldsFrom(path, k);
  }

  /** Finds the longest proper prefix of `path`, reached through field projections only,
      whose type (looked up for function `f`) declares a mutex. */
  function FindField(path: ExprPath, f: nat, pathTypes: map<(nat, ExprPath), string>, withMutex: set<string>): (r: Grouping)
    ensures Explains(path, f, pathTypes, withMutex, r)
    decreases |path.projections|
  {
    var (prefix, last) := Pop(path);
    var n := |prefix.projections|;
    if last.None? then Ungrouped
    else
      assert prefix == Prefix(path, n);
      if !last.value.Field? then Ungrouped
      else if (f, prefix) !in pathTypes then
        assert FieldsFrom(path, n);
        MissingType
      else if pathTypes[(f, prefix)] in withMutex then
        Grouped(pathTypes[(f, prefix)], prefix, last.value.name)
      else
        var r := FindField(prefix, f, pathTypes, withMutex);
        ExplainsAfterField(path, f, pathTypes, withMutex, r);
        r
  }

  /** A struct field access filed under its struct type and field: the accessing
      function, the prefix path of the struct value, the held ids and the write flag. */
  datatype FiledAccess = FiledAccess(caller: nat, prefix: ExprPath, held: set<nat>, write: bool)

  /** The filing of one access. */
  function Filing(a: StructAccess, pathTypes: map<(nat, ExprPath), string>, withMutex: set<string>): Grouping {
    FindField(a.path, a.caller, pathTypes, withMutex)
  }

  /** The filings of all accesses, in order. */
  function Filings(accs: seq<StructAccess>, pathTypes: map<(nat, ExprPath), string>, withMutex: set<string>): (r: seq<Grouping>)
    ensures |r| == |accs|
    ensures forall i :: 0 <= i < |accs| ==> r[i] == Filing(accs[i], pathTypes, withMutex)
  {
    seq(|accs|, i requires 0 <= i < |accs| => Filing(accs[i], pathTypes, withMutex))
  }

  /** `e` is filed under `key` on behalf of access `a` with filing `g`. */
  predicate FiledAs(a: StructAccess, g: Grouping, key: (string, string), e: FiledAccess) {
    g.Grouped? && key == (g.typ, g.field) && e == FiledAccess(a.caller, g.prefix, a.held, a.write)
  }

  /** `e` under `key` is on behalf of one of `accs`. */
  predicate FiledBySome(accs: seq<StructAccess>, filings: seq<Grouping>, key: (string, string), e: FiledAccess)
    requires |filings| == |accs|
  {
    exists i :: 0 <= i < |accs| && FiledAs(accs[i], filings[i], key, e)
  }

  /** Every access that is grouped is filed in `groups`. */
  predicate AllFiled(accs: seq<StructAccess>, filings: seq<Grouping>, groups: map<(string, string), seq<FiledAccess>>)
    requires |filings| == |accs|
  {
    forall i :: 0 <= i < |accs| && filings[i].Grouped? ==>
      (filings[i].typ, filings[i].field) in groups &&
      FiledAccess(accs[i].caller, filings[i].prefix, accs[i].held, accs[i].write) in groups[(filings[i].typ, filings[i].field)]
  }

  lemma FiledBySomeExtends(accs: seq<StructAccess>, filings: seq<Grouping>, key: (string, string), e: FiledAccess)
    requires |filings| == |accs| > 0
    requires FiledBySome(accs[..|accs| - 1], filings[..|accs| - 1], key, e) ||
             FiledAs(accs[|accs| - 1], filings[|accs| - 1], key, e)
    ensures FiledBySome(accs, filings, key, e)
  {
    var n := |accs| - 1;
    if FiledBySome(accs[..n], filings[..n], key, e) {
      var i :| 0 <= i < n && FiledAs(accs[..n][i], filings[..n][i], key, e);
      assert accs[i] == accs[..n][i] && filings[i] == filings[..n][i];
    }
  }

  /** Filing the last access on top of the filings of the others keeps every filed
      access accounted for and every grouped access filed. */
  lemma FiledAfterLast(accs: seq<StructAccess>, filings: seq<Grouping>, groups: map<(string, string), seq<FiledAccess>>,
                       groups': map<(string, string), seq<FiledAccess>>)
    requires |filings| == |accs| > 0
    requires var n := |accs| - 1;
             && AllFiled(accs[..n], filings[..n], groups)
             && forall key, e :: key in groups && e in groups[key] ==> FiledBySome(accs[..n], filings[..n], key, e)
    requires forall key, e :: key in groups && e in groups[key] ==> key in groups' && e in groups'[key]
    requires forall key, e :: key in groups' && e in groups'[key] ==>
               (key in groups && e in groups[key]) || FiledAs(accs[|accs| - 1], filings[|accs| - 1], key, e)
    requires var n := |accs| - 1;
             filings[n].Grouped? ==>
               (filings[n].typ, filings[n].field) in groups' &&
               FiledAccess(accs[n].caller, filings[n].prefix, accs[n].held, accs[n].write) in groups'[(filings[n].typ, filings[n].field)]
    ensures AllFiled(accs, filings, groups')
    ensures forall key, e :: key in groups' && e in groups'[key] ==> FiledBySome(accs, filings, key, e)
  {
    var n := |accs| - 1;
    assert forall i :: 0 <= i < n ==> accs[..n][i] == accs[i] && filings[..n][i] == filings[i];
    forall key, e | key in groups' && e in groups'[key] ensures FiledBySome(accs, filings, key, e) {
      FiledBySomeExtends(accs, filings, key, e);
    }
  }

  /** Files accesses under (struct type, field) following their filings; a missing type
      makes the whole result a failure. */
  function GroupFilings(accs: seq<StructAccess>, filings: seq<Grouping>): (r: Result<map<(string, string), seq<FiledAccess>>>)
    requires |filings| == |accs|
    ensures r.Failure? <==> exists i :: 0 <= i < |accs| && filings[i].MissingType?
    ensures r.Success? ==> AllFiled(accs, filings, r.value)
    ensures r.Success? ==> forall key, e :: key in r.value && e in r.value[key] ==> FiledBySome(accs, filings, key, e)
    decreases |accs|
  {
    if |accs| == 0 then Success(map[])
    else
      var n := |accs| - 1;
      assert forall i :: 0 <= i < n ==> filings[..n][i] == filings[i];
      match GroupFilings(accs[..n], filings[..n])
      case Failure(e) => Failure(e)
      case Success(groups) =>
        match filings[n]
        case MissingType => Failure("no type recorded for a struct access prefix")
        case Ungrouped =>
          FiledAfterLast(accs, filings, groups, groups);
          Success(groups)
        case Grouped(typ, prefix, field) =>
          var prior := if (typ, field) in groups then groups[(typ, field)] else [];
          var added := FiledAccess(accs[n].caller, prefix, accs[n].held, accs[n].write);
          var groups' := groups[(typ, field) := prior + [added]];
          FiledAfterLast(accs, filings, groups, groups');
          Success(groups')
  }

  /** Files every struct field access under (struct type, field). The result is a failure
      exactly when some access reaches a prefix without a recorded type; otherwise every
      grouped access is filed under its key and nothing else is filed. */
  function GroupStructAccesses(accs: seq<StructAccess>, pathTypes: map<(nat, ExprPath), string>, withMutex: set<string>)
    : (r: Result<map<(string, string), seq<FiledAccess>>>)
    ensures r.Failure? <==> exists i :: 0 <= i < |accs| && Filing(accs[i], pathTypes, withMutex).MissingType?
    ensures r.Success? ==> AllFiled(accs, Filings(accs, pathTypes, withMutex), r.value)
    ensures r.Success? ==> forall key, e :: key in r.value && e in r.value[key] ==>
              FiledBySome(accs, Filings(accs, pathTypes, withMutex), key, e)
  {
    GroupFilings(accs, Filings(accs, pathTypes, withMutex))
  }
}

=== FILE: suggestions.dfy ===
/** The pending source edits of the rewriting stage. Every edit is filed under its file
    and a nesting depth; when a file is rewritten its edits are applied bucket by bucket
    in ascending depth, and within a bucket in the order they were recorded. */
module Suggestions {
  import Ordered

  /** The edits of one file, by depth. */
  type Buckets<T> = map<int, seq<T>>

  /** The edits of every file, by file path. */
  type Pending<T> = map<string, Buckets<T>>

  /** The edits recorded at depth `d` so far. */
  function Bucket<T>(b: Buckets<T>, d: int): seq<T> {
    if d in b then b[d] else []
  }

  /** Records edit `s` at depth `depth`: it goes to the end of that bucket, which is
      created when missing, and no other bucket changes. */
  function AddAt<T>(b: Buckets<T>, depth: int, s: T): (r: Buckets<T>)
    ensures r.Keys == b.Keys + {depth}
    ensures r[depth] == Bucket(b, depth) + [s]
    ensures forall d :: d in b && d != depth ==> r[d] == b[d]
  {
    b[depth := Bucket(b, depth) + [s]]
  }

  /** Records edit `s` for file `file` at depth `depth`; the edits of other files do not
      change. */
  function Record<T>(p: Pending<T>, file: string, depth: int, s: T): (r: Pending<T>)
    ensures r.Keys == p.Keys + {file}
    ensures file in p ==> r[file] == AddAt(p[file], depth, s)
    ensures file !in p ==> r[file] == map[depth := [s]]
    ensures forall g :: g in p && g != file ==> r[g] == p[g]
  {
    var b := if file in p then p[file] else map[];
    assert file !in p ==> Bucket(b, depth) + [s] == [s];
    p[file := AddAt(b, depth, s)]
  }

  /** The edits of a file in the order they are applied: the bucket of the smallest depth
      first, then the rest. */
  function Flatten<T>(b: Buckets<T>): (r: seq<T>)
    ensures b == map[] ==> r == []
    ensures b != map[] ==> |b[Ordered.Min(b.Keys)]| <= |r| && r[..|b[Ordered.Min(b.Keys)]|] == b[Ordered.Min(b.Keys)]
    ensures forall d :: d in b ==> |b[d]| <= |r|
    decreases |b.Keys|
  {
    if |b.Keys| == 0 then []
    else
      var k := Ordered.Min(b.Keys);
      var rest := b - {k};
      assert rest.Keys == b.Keys - {k};
      var r := b[k] + Flatten(rest);
      assert forall d :: d in b && d != k ==> d in rest && rest[d] == b[d];
      r
  }

  /** One step of `Flatten`: the shallowest bucket, then the others. */
  lemma FlattenUnfold<T>(b: Buckets<T>)
    requires |b.Keys| != 0
    ensures Flatten(b) == b[Ordered.Min(b.Keys)] + Flatten(b - {Ordered.Min(b.Keys)})
  {
  }

  /** Nothing is lost or invented: the applied edits are exactly the recorded ones. */
  lemma {:induction false} FlattenMembers<T>(b: Buckets<T>)
    ensures forall i :: 0 <= i < |Flatten(b)| ==> exists d :: d in b && Flatten(b)[i] in b[d]
    ensures forall d, j :: d in b && 0 <= j < |b[d]| ==> b[d][j] in Flatten(b)
    decreases |b.Keys|
  {
    if |b.Keys| != 0 {
      var k := Ordered.Min(b.Keys);
      var rest := b - {k};
      assert rest.Keys == b.Keys - {k};
      FlattenMembers(rest);
      FlattenUnfold(b);
      var r := Flatten(b);
      forall i | 0 <= i < |r| ensures exists d :: d in b && r[i] in b[d] {
        if i < |b[k]| {
          assert r[i] in b[k];
        } else {
          assert r[i] == Flatten(rest)[i - |b[k]|];
          var d :| d in rest && r[i] in rest[d];
          assert d in b && rest[d] == b[d];
        }
      }
      forall d, j | d in b && 0 <= j < |b[d]| ensures b[d][j] in r {
        if d == k {
          assert r[j] == b[d][j];
        } else {
          assert d in rest && rest[d] == b[d];
        }
      }
    } else {
      assert b.Keys == {};
      assert Flatten(b) == [];
    }
  }

  /** The buckets at depth `d` or shallower. */
  function UpTo<T>(b: Buckets<T>, d: int): (r: Buckets<T>)
    ensures forall k :: k in r <==> k in b && k <= d
  {
    map k | k in b && k <= d :: b[k]
  }

  /** The buckets deeper than `d`. */
  function Deeper<T>(b: Buckets<T>, d: int): (r: Buckets<T>)
    ensures forall k :: k in r <==> k in b && d < k
  {
    map k | k in b && d < k :: b[k]
  }

  /** Every edit at depth `d` or shallower comes before every deeper edit. */
  lemma {:induction false} FlattenSplit<T>(b: Buckets<T>, d: int)
    ensures Flatten(b) == Flatten(UpTo(b, d)) + Flatten(Deeper(b, d))
    decreases |b.Keys|
  {
    if |b.Keys| == 0 {
      assert UpTo(b, d) == map[];
      assert Deeper(b, d) == map[];
    } else {
      var k := Ordered.Min(b.Keys);
      var rest := b - {k};
      assert rest.Keys == b.Keys - {k};
      FlattenSplit(rest, d);
      FlattenSplitStep(b, d);
    }
  }

  /** The inductive step of `FlattenSplit`: the split of `b` follows from the split of `b`
      without its shallowest bucket. */
  lemma FlattenSplitStep<T>(b: Buckets<T>, d: int)
    requires |b.Keys| != 0
    requires
      var rest := b - {Ordered.Min(b.Keys)};
      Flatten(rest) == Flatten(UpTo(rest, d)) + Flatten(Deeper(rest, d))
    ensures Flatten(b) == Flatten(UpTo(b, d)) + Flatten(Deeper(b, d))
  {
    var k := Ordered.Min(b.Keys);
    var rest := b - {k};
    FlattenUnfold(b);
    var lo, hi := Flatten(UpTo(rest, d)), Flatten(Deeper(rest, d));
    assert Flatten(b) == b[k] + (lo + hi);
    if k <= d {
      ShallowestIsUpTo(b, d);
      FlattenUnfold(UpTo(b, d));
      assert UpTo(b, d)[k] == b[k];
      assert Flatten(UpTo(b, d)) == b[k] + lo;
      ConcatAssoc(b[k], lo, hi);
    } else {
      ShallowestIsDeeper(b, d);
      assert Flatten(UpTo(b, d)) == [];
    }
  }

  lemma ConcatAssoc<T>(a: seq<T>, b: seq<T>, c: seq<T>)
    ensures a + (b + c) == (a + b) + c
  {
  }

  /** When the shallowest bucket is at depth `d` or shallower, it is also the shallowest
      bucket of `UpTo(b, d)`, and removing it commutes with the split. */
  lemma ShallowestIsUpTo<T>(b: Buckets<T>, d: int)
    requires |b.Keys| != 0 && Ordered.Min(b.Keys) <= d
    ensures |UpTo(b, d).Keys| != 0 && Ordered.Min(UpTo(b, d).Keys) == Ordered.Min(b.Keys)
    ensures UpTo(b, d) - {Ordered.Min(b.Keys)} == UpTo(b - {Ordered.Min(b.Keys)}, d)
    ensures Deeper(b, d) == Deeper(b - {Ordered.Min(b.Keys)}, d)
  {
    var k := Ordered.Min(b.Keys);
    assert k in UpTo(b, d).Keys;
  }

  /** When even the shallowest bucket is deeper than `d`, every bucket is. */
  lemma ShallowestIsDeeper<T>(b: Buckets<T>, d: int)
    requires |b.Keys| != 0 && d < Ordered.Min(b.Keys)
    ensures UpTo(b, d) == map[]
    ensures Deeper(b, d) == b
  {
  }

  /** A single bucket is applied as it is. */
  lemma FlattenSingle<T>(d: int, x: seq<T>)
    ensures Flatten(map[d := x]) == x
  {
    var m := map[d := x];
    assert m.Keys == {d};
    FlattenUnfold(m);
    assert m - {d} == map[];
  }

  /** Adding edits at the deepest depth present puts them at the very end. */
  lemma {:induction false} FlattenAppendDeepest<T>(c: Buckets<T>, d: int, x: seq<T>)
    requires forall k :: k in c ==> k <= d
    ensures Flatten(c[d := Bucket(c, d) + x]) == Flatten(c) + x
    decreases |c.Keys|
  {
    if |c.Keys| == 0 {
      assert c == map[];
      assert Bucket(c, d) + x == x;
      assert c[d := Bucket(c, d) + x] == map[d := x];
      FlattenSingle(d, x);
    } else if Ordered.Min(c.Keys) == d {
      OnlyBucket(c, d);
      assert c == map[d := c[d]];
      assert c[d := Bucket(c, d) + x] == map[d := c[d] + x];
      FlattenSingle(d, c[d]);
      FlattenSingle(d, c[d] + x);
    } else {
      var rest := c - {Ordered.Min(c.Keys)};
      assert rest.Keys == c.Keys - {Ordered.Min(c.Keys)};
      FlattenAppendDeepest(rest, d, x);
      AppendDeepestStep(c, d, x);
    }
  }

  /** When the shallowest bucket is also the deepest, it is the only one. */
  lemma OnlyBucket<T>(c: Buckets<T>, d: int)
    requires |c.Keys| != 0 && Ordered.Min(c.Keys) == d
    requires forall k :: k in c ==> k <= d
    ensures c.Keys == {d}
  {
  }

  /** The inductive step of `FlattenAppendDeepest`, when a shallower bucket comes first. */
  lemma AppendDeepestStep<T>(c: Buckets<T>, d: int, x: seq<T>)
    requires |c.Keys| != 0 && Ordered.Min(c.Keys) < d
    requires forall k :: k in c ==> k <= d
    requires
      var rest := c - {Ordered.Min(c.Keys)};
      Flatten(rest[d := Bucket(rest, d) + x]) == Flatten(rest) + x
    ensures Flatten(c[d := Bucket(c, d) + x]) == Flatten(c) + x
  {
    var k := Ordered.Min(c.Keys);
    var rest := c - {k};
    var v := Bucket(c, d) + x;
    var c' := c[d := v];
    UpdateAboveMin(c, d, v);
    assert Bucket(rest, d) == Bucket(c, d);
    FlattenUnfold(c');
    FlattenUnfold(c);
    ConcatAssoc(c[k], Flatten(rest), x);
  }

  /** Updating a bucket deeper than the shallowest one keeps the shallowest one first. */
  lemma UpdateAboveMin<T>(c: Buckets<T>, d: int, v: seq<T>)
    requires |c.Keys| != 0 && Ordered.Min(c.Keys) < d
    ensures |c[d := v].Keys| != 0
    ensures Ordered.Min(c[d := v].Keys) == Ordered.Min(c.Keys)
    ensures c[d := v][Ordered.Min(c.Keys)] == c[Ordered.Min(c.Keys)]
    ensures c[d := v] - {Ordered.Min(c.Keys)} == (c - {Ordered.Min(c.Keys)})[d := v]
  {
    var k := Ordered.Min(c.Keys);
    assert k in c[d := v].Keys;
  }

  /** An edit recorded at depth `d` is applied after every edit already recorded at depth
      `d` or shallower and before every deeper one. */
  lemma AddAtOrder<T>(b: Buckets<T>, d: int, s: T)
    ensures Flatten(AddAt(b, d, s)) == Flatten(UpTo(b, d)) + [s] + Flatten(Deeper(b, d))
  {
    var b' := AddAt(b, d, s);
    var lo := UpTo(b, d);
    FlattenSplit(b', d);
    AddAtSplit(b, d, s);
    FlattenAppendDeepest(lo, d, [s]);
  }

  /** Adding at depth `d` changes only the shallow side of the split at `d`, and there it
      changes the deepest bucket. */
  lemma AddAtSplit<T>(b: Buckets<T>, d: int, s: T)
    ensures Deeper(AddAt(b, d, s), d) == Deeper(b, d)
    ensures UpTo(AddAt(b, d, s), d) == UpTo(b, d)[d := Bucket(UpTo(b, d), d) + [s]]
  {
    assert Bucket(UpTo(b, d), d) == Bucket(b, d);
  }
}

=== FILE: summary.dfy ===
/** Per-function summaries assembled from the intraprocedural results: the guards
    held at entry, at return, and before each call terminator. */
module Summaries {
  import opened ExprPaths
  import Ordered

  /** A call terminator of the function body: the callee, the guard ids held just
      before it, and those ids mapped through argument aliasing. */
  datatype CallSite = CallSite(callee: nat, held: set<nat>, propagated: set<nat>)

  /** An access to a path from the function body: the guard ids held before the
      statement and whether it is a write. */
  datatype AccessSite = AccessSite(path: ExprPath, held: set<nat>, write: bool)

  /** The summary of one function. `propagation` maps each user-defined callee to the
      ids held across the call; `propagationMutex` is filled in after the fixpoint. */
  datatype FunctionSummary = FunctionSummary(
    entry: set<nat>,
    node: set<nat>,
    ret: set<nat>,
    propagation: map<nat, set<nat>>,
    access: seq<AccessSite>,
    propagationMutex: set<nat>)

  /** The guards held before some call of `calls`. */
  predicate HeldAtSomeCall(calls: seq<CallSite>, x: nat) {
    exists i :: 0 <= i < |calls| && x in calls[i].held
  }

  /** The guards held anywhere in the function: at entry, at return, and before any
      call terminator (library calls included), and nothing else. */
  function NodeMutex(entry: set<nat>, ret: set<nat>, calls: seq<CallSite>): (r: set<nat>)
    ensures entry <= r && ret <= r
    ensures forall i :: 0 <= i < |calls| ==> calls[i].held <= r
    ensures forall x :: x in r ==> x in entry || x in ret || HeldAtSomeCall(calls, x)
    decreases |calls|
  {
    if |calls| == 0 then entry + ret
    else
      var rest := NodeMutex(entry, ret, calls[..|calls| - 1]);
      assert forall x :: HeldAtSomeCall(calls[..|calls| - 1], x) ==> HeldAtSomeCall(calls, x) by {
        forall x | HeldAtSomeCall(calls[..|calls| - 1], x) ensures HeldAtSomeCall(calls, x) {
          var i :| 0 <= i < |calls| - 1 && x in calls[..|calls| - 1][i].held;
          assert x in calls[i].held;
        }
      }
      rest + calls[|calls| - 1].held
  }

  /** `p` is the (callee, propagated ids) pair of some call of `calls`. */
  predicate FromSomeCall(calls: seq<CallSite>, p: (nat, set<nat>)) {
    exists j :: 0 <= j < |calls| && p == (calls[j].callee, calls[j].propagated)
  }

  /** `r` lists, in order, the (callee, propagated ids) pairs of exactly the calls at
      positions `idx` of `calls`, and those positions are the calls to user-defined
      functions, in increasing order. */
  ghost predicate PicksUserCalls(calls: seq<CallSite>, functions: set<nat>, r: seq<(nat, set<nat>)>, idx: seq<nat>) {
    && |idx| == |r|
    && Ordered.StrictlyIncreasing(idx)
    && (forall k :: 0 <= k < |r| ==> idx[k] < |calls| && r[k] == (calls[idx[k]].callee, calls[idx[k]].propagated))
    && (forall j :: 0 <= j < |calls| ==> (calls[j].callee in functions <==> j in idx))
  }

  /** Every position moved one call later. */
  function Shifted(idx: seq<nat>): (r: seq<nat>)
    ensures |r| == |idx| && forall k :: 0 <= k < |idx| ==> r[k] == idx[k] + 1
  {
    seq(|idx|, k requires 0 <= k < |idx| => idx[k] + 1)
  }

  /** Shifting keeps the order and moves exactly the positions found in `idx`. */
  lemma ShiftedPositions(idx: seq<nat>)
    requires Ordered.StrictlyIncreasing(idx)
    ensures Ordered.StrictlyIncreasing(Shifted(idx))
    ensures 0 !in Shifted(idx)
    ensures forall j: nat :: j + 1 in Shifted(idx) <==> j in idx
  {
    var s := Shifted(idx);
    forall j: nat ensures j + 1 in s <==> j in idx {
      if j + 1 in s {
        var k :| 0 <= k < |s| && s[k] == j + 1;
        assert idx[k] == j;
      }
      if j in idx {
        var k :| 0 <= k < |idx| && idx[k] == j;
        assert s[k] == j + 1;
      }
    }
  }

  /** Position 0 goes in front of positions that are all later. */
  lemma FrontZeroIncreasing(t: seq<nat>)
    requires Ordered.StrictlyIncreasing(t) && 0 !in t
    ensures Ordered.StrictlyIncreasing([0] + t)
  {
    var s := [0] + t;
    forall i, j | 0 <= i < j < |s| ensures s[i] < s[j] {
      assert s[j] == t[j - 1];
      if i > 0 { assert s[i] == t[i - 1]; }
    }
  }

  /** Putting one call in front of a list of calls whose callee is user-defined: its
      pair goes first and the other positions move one call later. */
  lemma PicksFrontKept(calls: seq<CallSite>, functions: set<nat>, rest: seq<(nat, set<nat>)>, idx: seq<nat>)
    requires |calls| > 0 && calls[0].callee in functions
    requires PicksUserCalls(calls[1..], functions, rest, idx)
    ensures PicksUserCalls(calls, functions, [(calls[0].callee, calls[0].propagated)] + rest, [0] + Shifted(idx))
  {
    ShiftedPositions(idx);
    var t := Shifted(idx);
    var s := [0] + t;
    var r := [(calls[0].callee, calls[0].propagated)] + rest;
    FrontZeroIncreasing(t);
    forall k | 0 <= k < |r| ensures s[k] < |calls| && r[k] == (calls[s[k]].callee, calls[s[k]].propagated) {
      if k > 0 {
        assert r[k] == rest[k - 1] && s[k] == idx[k - 1] + 1;
        assert calls[1..][idx[k - 1]] == calls[s[k]];
      }
    }
    forall j | 0 <= j < |calls| ensures calls[j].callee in functions <==> j in s {
      if j > 0 {
        assert calls[j] == calls[1..][j - 1];
        assert j in s <==> j in t;
        assert j in t <==> j - 1 in idx;
      }
    }
  }

  /** Putting one library call in front of a list of calls: the pairs stay and their
      positions move one call later. */
  lemma PicksFrontSkipped(calls: seq<CallSite>, functions: set<nat>, rest: seq<(nat, set<nat>)>, idx: seq<nat>)
    requires |calls| > 0 && calls[0].callee !in functions
    requires PicksUserCalls(calls[1..], functions, rest, idx)
    ensures PicksUserCalls(calls, functions, rest, Shifted(idx))
  {
    ShiftedPositions(idx);
    assert forall j :: 1 <= j < |calls| ==> calls[j] == calls[1..][j - 1];
  }

  /** The propagation list: one (callee, propagated ids) entry per call to a
      user-defined function, taken from that call; library calls are skipped. */
  function CallPropagation(calls: seq<CallSite>, functions: set<nat>): (r: seq<(nat, set<nat>)>)
    ensures forall i :: 0 <= i < |r| ==> r[i].0 in functions
    ensures forall i :: 0 <= i < |r| ==> FromSomeCall(calls, r[i])
    ensures forall j :: 0 <= j < |calls| && calls[j].callee in functions ==> (calls[j].callee, calls[j].propagated) in r
    ensures |r| <= |calls|
    decreases |calls|
  {
    if |calls| == 0 then []
    else
      var rest := CallPropagation(calls[1..], functions);
      assert forall i :: 0 <= i < |rest| ==> FromSomeCall(calls, rest[i]) by {
        forall i | 0 <= i < |rest| ensures FromSomeCall(calls, rest[i]) {
          var j :| 0 <= j < |calls[1..]| && rest[i] == (calls[1..][j].callee, calls[1..][j].propagated);
          assert calls[1..][j] == calls[j + 1];
        }
      }
      assert forall j :: 1 <= j < |calls| ==> calls[j] == calls[1..][j - 1];
      if calls[0].callee in functions then [(calls[0].callee, calls[0].propagated)] + rest else rest
  }

  /** The propagation list follows the calls: its entries are those of the calls to
      user-defined functions, one per call, in the order of the calls. */
  lemma {:induction false} CallPropagationInOrder(calls: seq<CallSite>, functions: set<nat>)
    ensures exists idx :: PicksUserCalls(calls, functions, CallPropagation(calls, functions), idx)
    decreases |calls|
  {
    if |calls| == 0 {
      assert CallPropagation(calls, functions) == [];
      assert PicksUserCalls(calls, functions, [], []);
    } else {
      CallPropagationInOrder(calls[1..], functions);
      var rest := CallPropagation(calls[1..], functions);
      var idx :| PicksUserCalls(calls[1..], functions, rest, idx);
      if calls[0].callee in functions {
        PicksFrontKept(calls, functions, rest, idx);
        assert CallPropagation(calls, functions) == [(calls[0].callee, calls[0].propagated)] + rest;
      } else {
        PicksFrontSkipped(calls, functions, rest, idx);
        assert CallPropagation(calls, functions) == rest;
      }
    }
  }

  /** One unfolding of `CallPropagation`: the entry of the first call, if any, then those
      of the others. */
  lemma CallPropagationFront(calls: seq<CallSite>, functions: set<nat>)
    requires |calls| > 0
    ensures CallPropagation(calls, functions) ==
            (if calls[0].callee in functions then [(calls[0].callee, calls[0].propagated)] else []) +
            CallPropagation(calls[1..], functions)
  {
  }
}

=== FILE: wrappers.dfy ===
/** Small failure-compatible datatypes shared by the model. */
module Wrappers {

  /** An optional value, the model of Rust's `Option`. */
  datatype Option<+T> = None | Some(value: T)

  /** A value or the reason the source would have stopped (a failed `assert!` or `unwrap`). */
  datatype Result<+T> = Success(value: T) | Failure(error: string)
}
